=== FILE: README.md ===
# ASAP viewer and main window: a Dafny model

This project models the sequential rules of the ASAP whole-slide image viewer.
Each rule is a pure function on immutable data, and the properties the code
promises are proved about those functions. It covers:

- the viewer's interaction state: the pan flag and its anchor, scrolling, and
  the routing of mouse and key events between the viewer and the active tool;
- the tool registry and its activation rules;
- the scheduled-zoom counter;
- the tile-cache budget, and opening and closing an image;
- the pyramid arithmetic `initialize` performs: the overview level, tile
  padding and the scene rectangle;
- the basic pan tool;
- the main window: the plugin file-name filter, the extensions' close veto,
  the outcome of opening a file, the open dialog's filter list and the factory
  name read back from it, cache-size forwarding, and the start-up sequence.

Modules follow the source:

- `Basics`: `Option`, integer points, and C++ truncating division.
- `Pyramid`: the image as a sequence of level dimensions, and the overview and
  scene rules of `initialize` and `initializeImage`.
- `Viewer`: the `PathologyViewer` state record and one transition per handler.
- `PanTool`: the pan tool's handlers as transitions on the viewer state.
- `FileFilters`: the filter list of `getFileNameAndFactory`, the dialog's
  split at `;;`, and the `split("(")[0].trimmed()` read-back.
- `Window`: `ASAP_Window`'s plugin filter, close, open, cache and start-up logic.

The image reader, the file dialog, the plugin loader and the settings store
are parameters:

- The reader is passed to `Window.OpenFile` as a function from a file name
  and a factory name to an `Option<Image>`.
- The dialog's choice is passed in as a file name and the chosen filter text.
- The loaded plugins are passed in as their tools, their button names and each
  extension's `canClose` answer.
- Settings writes are fields of the window record.
- Emitted signals are appended to a sequence.

The scroll offsets are unbounded integers, and the scene rectangle uses exact
reals.

## Model

| member | source | states |
|---|---|---|
| Basics.TruncDiv | ASAP/PathologyViewer.cpp:145-146 | C++ `int` division rounds toward zero: the quotient's bounds are stated separately for non-negative and negative dividends |
| Pyramid.ScanDown | ASAP/PathologyViewer.cpp:277-284 | the downward loop over levels finds the highest index below its start whose width and height both exceed 512; when there is none it keeps the last index |
| Pyramid.OverviewLevel | ASAP/PathologyViewer.cpp:275-284 | the overview level is a valid index, is the highest level with both edges strictly above 512, and is the last level when no level qualifies |
| Pyramid.PaddedExtent | ASAP/PathologyViewer.cpp:369-370 | `((d / 512) + 1) * 512` is a multiple of 512 in the half-open range (d, d + 512] |
| Pyramid.LongestPadded | ASAP/PathologyViewer.cpp:369-371 | the longer padded edge is a multiple of 512, at least each padded edge, equal to one of them, and greater than both raw edges |
| Pyramid.SceneRect | ASAP/PathologyViewer.cpp:373 | the scene rectangle is a square of side 3 × the longest padded edge; it contains [0, w] × [0, h] with at least one longest padded edge of margin on every side |
| Viewer.Initial | ASAP/PathologyViewer.cpp:33-45 | the constructed viewer is enabled, has no image, overview, scene or cache, is not panning with its anchor at (0, 0) and the scroll at the origin, has an empty registry, no active tool, no tool flags and a zero zoom count |
| Viewer.IsPanning | ASAP/PathologyViewer.cpp:693-695 | the viewer reports panning exactly when stopping the pan would change its state |
| Viewer.TogglePan | ASAP/PathologyViewer.cpp:573-592 | the pan flag ends equal to the request; asking for the current mode changes nothing; starting anchors at the start position; stopping resets the anchor to (0, 0); nothing else changes |
| Viewer.StopPan | ASAP/PathologyViewer.cpp:584-591 | `togglePan(false)` ends panning and resets the anchor; it does nothing when the viewer is not panning |
| Viewer.Pan | ASAP/PathologyViewer.cpp:595-604 | the anchor becomes the target; vertical scroll moves by minus the pointer's motion; horizontal scroll moves by minus it, or plus it in right-to-left layout; nothing else changes |
| Viewer.PanThereAndBack | ASAP/PathologyViewer.cpp:601-604 | panning to a point and back to the old anchor restores the state exactly |
| Viewer.PanAlongTelescopes | ASAP/PathologyViewer.cpp:601-604 | a run of pans leaves the anchor at the last point; the scroll moves by the displacement from the first anchor to the last point, whatever the path between |
| Viewer.Dispatch | ASAP/PathologyViewer.cpp:625-691 | the viewer itself takes exactly the middle-button presses and releases (press starts, release stops panning) and the moves while panning (which pan); press and release are forwarded iff left button and a tool is active; a move is forwarded iff not panning and a tool is active; double click and key iff a tool is active; every other event is ignored; forwarded or ignored events leave the viewer unchanged |
| Viewer.MovesWhilePanningArePans | ASAP/PathologyViewer.cpp:663-667 | while panning, a sequence of moves is exactly the same sequence of pans, and panning continues |
| Viewer.MiddleDrag | ASAP/PathologyViewer.cpp:625-667 | a middle press, moves, then a middle release stops panning with the anchor reset; the scroll is displaced by the pointer's total travel from the press |
| Viewer.AddTool | ASAP/PathologyViewer.cpp:215-219 | a null tool changes nothing; otherwise the tool is stored under its name, replacing any entry there; all other entries and all other state are kept |
| Viewer.HasTool | ASAP/PathologyViewer.cpp:221-228 | an entry exists under a name exactly when a tool button of that name would add no registry entry; when none exists, `setActiveTool` ignores the name |
| Viewer.SetActiveToolAsWritten | ASAP/PathologyViewer.cpp:230-237 | unknown name: no change. Name with a null entry: a null dereference. Name with a tool: the corrected result |
| Viewer.SetActiveTool | ASAP/PathologyViewer.cpp:230-238 | unknown or null entry: no change. Otherwise the named tool becomes active with its flag true; the previously active, different tool is flagged inactive; other flags and state are kept; no tool gains a flag except the previous and the new active one |
| Viewer.ChangeActiveTool | ASAP/PathologyViewer.cpp:244-259 | no sender: no change. An unknown name inserts a null entry, clears the active tool and leaves every flag untouched. A non-null tool becomes active and flagged; a different previous tool is flagged inactive; re-selecting the active tool only re-sets its flag. The flags of all other tools, and all viewer state besides registry, active tool and flags, are kept; only the previous and the new active tool can gain a flag |
| Viewer.RegistryKeepsActiveFlagged | ASAP/PathologyViewer.cpp:215-259 | addTool, setActiveTool and changeActiveTool each preserve the invariant that the active tool carries a true `active` flag |
| Viewer.UnknownButtonLeavesNullEntry | ASAP/PathologyViewer.cpp:244-256 | after a button with an unregistered name, `hasTool` answers yes for it, no tool is active, and the old tool still believes it is active |
| Viewer.NullEntryCrashesSetActiveTool | ASAP/PathologyViewer.cpp:230-236 | after an unknown button "measure", `hasTool("measure")` holds; the as-written `setActiveTool("measure")` dereferences null, and the corrected one changes nothing |
| Viewer.WheelSteps | ASAP/PathologyViewer.cpp:145-146 | `(delta / 8) / 15` with truncation: zero for abs(delta) < 120; otherwise the whole number of 120-unit notches, rounded toward zero, with delta's sign |
| Viewer.DivSteps | ASAP/PathologyViewer.cpp:145-146 | the two truncating divisions equal one truncating division by 120 |
| Viewer.Zoom | ASAP/PathologyViewer.cpp:154-162 | with no image nothing changes. Otherwise a request in the direction already scheduled (or from zero) adds to the count. A request against it that outweighs the backlog leaves the sum; one smaller than the backlog discards the backlog and leaves the request alone. The count never points against the request, and after a reversal it is no larger than the request; only the count changes |
| Viewer.Wheel | ASAP/PathologyViewer.cpp:143-151 | a sub-notch wheel event, or any event without an image, leaves the state unchanged. Turning in the direction already scheduled adds the whole notches turned. Turning against it: when the notches turned are at least the count's magnitude they are added to it; when fewer, the count is replaced by the notches turned. Only the count is touched |
| Viewer.SameDirectionAccumulates | ASAP/PathologyViewer.cpp:158-162 | requests that all zoom in (or all zoom out), starting from a backlog in that direction, raise the count by their total |
| Viewer.ReversalDiscardsLargerBacklog | ASAP/PathologyViewer.cpp:158-162 | from a zero count, n steps in and then k < n steps out leave -k scheduled, not n - k; n in and n out leave 0 |
| Viewer.ZoomFinishedAsWritten | ASAP/PathologyViewer.cpp:195-200 | a positive count decreases by one; any other count, zero included, increases by one; so the count always changes |
| Viewer.ZoomFinished | ASAP/PathologyViewer.cpp:195-200 | corrected: a nonzero count moves one step toward zero without changing sign, and zero stays zero |
| Viewer.AnimationsSettle | ASAP/PathologyViewer.cpp:195-200 | once at least as many animations have finished as steps were scheduled, the corrected count is zero |
| Viewer.FinishZoom | ASAP/PathologyViewer.cpp:195-200 | corrected (Finding 1): a finished animation moves a non-zero count exactly one step toward zero without changing its sign, leaves a zero count alone, and touches nothing else |
| Viewer.SubNotchWheelZoomsIn | ASAP/PathologyViewer.cpp:143-200 | with an image and a zero count, a wheel delta of -60 schedules nothing; after its animation, the as-written count is 1 and the next -60 delta leaves it at 1 (zoom in); the corrected count stays 0 |
| Viewer.GetCacheSize | ASAP/PathologyViewer.cpp:113-120 | the cache's budget, or 0 while no cache exists |
| Viewer.SetCacheSize | ASAP/PathologyViewer.cpp:123-127 | without a cache nothing changes; with one, the same cache is kept and the budget read back is the one set, zero included; nothing else changes |
| Viewer.Close | ASAP/PathologyViewer.cpp:515-570 | image, overview and cache are gone, the viewer is disabled, the cache budget reads 0; pan, tools and zoom count are kept |
| Viewer.Initialize | ASAP/PathologyViewer.cpp:268-310 | the viewer is enabled with the image, uses the overview level chosen by `OverviewLevel`, and has a cache holding the viewer's own 1000·512·512·3 budget; the scene rectangle is exactly the padded rectangle of the overview level; the rest is as after `close` |
| Viewer.CacheSizeBeforeOpenIsLost | ASAP/PathologyViewer.cpp:286-288 | a budget set while no cache exists is dropped; the next open uses the viewer's own budget |
| PanTool.Name | ASAP/basictools/PanTool.cpp:39-41 | the tool's name is "pan" |
| PanTool.MousePress | ASAP/basictools/PanTool.cpp:15-20 | with a viewer, any button starts panning at the pointer and is accepted (an ongoing pan keeps its anchor); without one nothing changes and nothing is accepted; only the pan flag and anchor can change |
| PanTool.MouseRelease | ASAP/basictools/PanTool.cpp:22-27 | with a viewer, panning stops with the anchor reset and the event is accepted; without one nothing changes; only the pan flag and anchor can change |
| PanTool.MouseMove | ASAP/basictools/PanTool.cpp:6-13 | the move is accepted iff there is a viewer and it is panning; then it pans to the pointer; otherwise the viewer is untouched |
| PanTool.GetToolButton | ASAP/basictools/PanTool.cpp:29-37 | returns the button the tool now holds; its object name is the tool's name; an existing button is returned unchanged; the tool stays well-formed |
| PanTool.ToolButtonCreatedOnce | ASAP/basictools/PanTool.cpp:29-37 | a second call returns the same button and leaves the tool as the first call left it |
| PanTool.LeftDragThroughViewer | ASAP/basictools/PanTool.cpp:6-27 | for the tool registered as the active "pan" entry: a left press reaches it, and it starts panning at the pointer; the following moves are panned by the viewer; the left release reaches the tool again, and the tool stops panning |
| PanTool.MoveReachingToolNeverPans | ASAP/PathologyViewer.cpp:663-673 | a move the viewer forwards to a tool finds the viewer not panning, so the pan tool's move handler does nothing |
| FileFilters.Trim | ASAP/ASAP_Window.cpp:354 | `trimmed()` returns a contiguous slice with no white space at either end; everything dropped is white space; a string already tidy is returned unchanged |
| FileFilters.TrimTrailingSpace | ASAP/ASAP_Window.cpp:354 | a tidy name followed by one space trims back to the name |
| FileFilters.BeforeFirst | ASAP/ASAP_Window.cpp:354 | `split("(")[0]` is the longest prefix without "(", ending just before the first "(" if there is one |
| FileFilters.ExtPatterns | ASAP/ASAP_Window.cpp:337-339 | the pattern text is empty exactly for no extensions, otherwise starts with a space, and is as long as " *." plus the extension, summed over the extensions |
| FileFilters.ExtPatternsAppend | ASAP/ASAP_Window.cpp:337-339 | the patterns of two extension lists, one after the other, are the patterns of the joined list |
| FileFilters.ExtPatternsPiece | ASAP/ASAP_Window.cpp:337-339 | extension i appears as " *." followed by itself, right after the patterns of the extensions before it; so the text lists every extension, in order |
| FileFilters.DefaultFilter | ASAP/ASAP_Window.cpp:336-341 | the default entry is the label "All supported types", then " (", then the patterns of all extensions, then ")" |
| FileFilters.FactoryFilter | ASAP/ASAP_Window.cpp:345-350 | a factory's entry is its name, then " (*.", then its first extension, then the patterns of its other extensions, then ")" |
| FileFilters.FactorySuffix | ASAP/ASAP_Window.cpp:343-351 | the factories' part of the list is empty exactly when there are no factories, and otherwise starts with the ";;" separator |
| FileFilters.FilterList | ASAP/ASAP_Window.cpp:334-351 | the list starts with the default entry, and is just that entry when no factory is loaded |
| FileFilters.Entries | ASAP/ASAP_Window.cpp:334-351 | the entries offered are the default entry followed by one entry per factory, in order |
| FileFilters.FindSeparator | ASAP/ASAP_Window.cpp:350 | the first ";;" at or after a position, or the end when there is none |
| FileFilters.SplitEntries | ASAP/ASAP_Window.cpp:350 | splitting at ";;" gives at least one entry; no entry contains ";;"; no entry but the last ends in ';', so each cut is at the leftmost ";;"; joining the entries with ";;" gives the string back |
| FileFilters.SplitAtSeparator | ASAP/ASAP_Window.cpp:350 | text without ";" is one entry, and it ends at the ";;" that follows it |
| FileFilters.PatternsHaveNoSemicolon | ASAP/ASAP_Window.cpp:337-347 | extension patterns built from ";"-free extensions contain no ";" |
| FileFilters.FactoryFilterHasNoSemicolon | ASAP/ASAP_Window.cpp:345-350 | a factory entry built from a ";"-free name and extensions contains no ";" |
| FileFilters.SplitSuffix | ASAP/ASAP_Window.cpp:344-351 | a head entry followed by the factories' ";;"-joined entries splits back into the head and those entries, in order |
| FileFilters.FilterListSplitsIntoEntries | ASAP/ASAP_Window.cpp:334-351 | the dialog recovers exactly the default entry followed by one entry per factory, in order |
| FileFilters.SelectedFactory | ASAP/ASAP_Window.cpp:354 | the factory name read from a filter contains no "(" and no surrounding white space |
| FileFilters.OpenFactoryName | ASAP/ASAP_Window.cpp:330 | the label "All supported types" maps to "default"; any other name is passed through |
| FileFilters.BeforeFirstOfJoin | ASAP/ASAP_Window.cpp:354 | the text before the first "(" of `a + "(" + b` is `a` when `a` has no "(" |
| FileFilters.DefaultEntryOpensWithDefault | ASAP/ASAP_Window.cpp:330-354 | the default entry reads back as "All supported types", which opens with "default" |
| FileFilters.FactoryEntryRoundTrip | ASAP/ASAP_Window.cpp:343-354 | a factory entry reads back as the factory's name when that name has no "(" and no surrounding white space |
| Window.LibrarySuffix | ASAP/ASAP_Window.cpp:42-48 | the platform's library suffix: ".dll", ".dylib" or ".so" |
| Window.LowerChar | ASAP/ASAP_Window.cpp:128 | ASCII upper-case letters map to lower case; every other character is kept |
| Window.Lower | ASAP/ASAP_Window.cpp:128 | lower-casing keeps the length and lower-cases each character |
| Window.HasLibrarySuffix | ASAP/ASAP_Window.cpp:128 | a file is loaded as a plugin iff its lower-cased name ends with the platform's suffix |
| Window.PluginFilesExactly | ASAP/ASAP_Window.cpp:127-128 | every file tried passes the suffix test, every listed file that passes it is tried, and nothing unlisted is tried |
| Window.PluginFilesSnoc | ASAP/ASAP_Window.cpp:127-128 | one more listed file is appended to the files tried exactly when it passes the suffix test |
| Window.SelectPluginFiles | ASAP/ASAP_Window.cpp:152-153 | the loop over a directory listing keeps exactly the plugin files, in listing order |
| Window.FirstVeto | ASAP/ASAP_Window.cpp:270-274 | every extension before the returned index agrees to close; the one at the index, if any, refuses |
| Window.CloseTriggered | ASAP/ASAP_Window.cpp:268-284 | a refusal stops at the first refusing extension and changes nothing; otherwise every extension is asked, image-closed is emitted, and the current file and title are reset even with no image open; the viewer is closed, the image dropped and "Closed file!" shown only when there is an image; the last-opened path, the stored budget and the extensions are kept |
| Window.LastSlash | ASAP/ASAP_Window.cpp:300-302 | the last "/" of a path, or none |
| Window.FileNamePart | ASAP/ASAP_Window.cpp:302 | the file name is the suffix of the path after its last "/", and the whole path when there is none |
| Window.DirPath | ASAP/ASAP_Window.cpp:300 | the directory is the text before the last "/", "/" when that slash is the first character, and "." when the path has no "/" |
| Window.PathSplitRoundTrip | ASAP/ASAP_Window.cpp:300-302 | directory + "/" + file name gives the path back when the last "/" is not the first character |
| Window.ClosedForOpen | ASAP/ASAP_Window.cpp:289-296 | before opening, the status is cleared and an open image is closed through the close action |
| Window.OpenFile | ASAP/ASAP_Window.cpp:287-325 | empty name: only the status is cleared. Otherwise an open image is closed first, and the paths, title and image are set from the reader's answer for this file and this factory, all other fields kept. No image: "Invalid file type". Invalid image: "Unsupported file type version". Valid image: the viewer is initialised with it and new-image-loaded is emitted with the full name. Without a load, viewer and emitted signals are as after the close |
| Window.LoadedImageIsShown | ASAP/ASAP_Window.cpp:308-316 | a named file for which the reader gives a valid image loads: the enabled viewer shows that image with its own cache budget, and new-image-loaded is emitted last |
| Window.FactoryDecidesOutcome | ASAP/ASAP_Window.cpp:306-323 | the factory name is handed to the reader: with a reader that knows a file only under "tiff", opening it with "tiff" loads it and opening it with "default" is an invalid file type |
| Window.OpenTriggered | ASAP/ASAP_Window.cpp:327-331 | a cancelled dialog only clears the status; the default label opens with "default", any other selected name opens with that name |
| Window.OpenUsesChosenFactory | ASAP/ASAP_Window.cpp:327-354 | opening through the dialog's k-th offered entry asks the reader with "default" for the first entry and with the k-th factory's name otherwise |
| Window.SetCacheSize | ASAP/ASAP_Window.cpp:358-363 | only the viewer's cache changes; with no cache nothing changes; with one, the budget becomes the window's stored size |
| Window.GetCacheSize | ASAP/ASAP_Window.cpp:365-373 | the viewer's budget, 0 while it has no cache |
| Window.SetCacheSizeIgnoresRequest | ASAP/ASAP_Window.cpp:358-363 | any two requested sizes give the same window |
| Window.AddTools | ASAP/ASAP_Window.cpp:127-200 | the registry's names are exactly the earlier names plus every loaded tool's name, and nothing but the registry changes |
| Window.ToolNames | ASAP/ASAP_Window.cpp:127-146 | a name is collected exactly when some loaded tool carries it |
| Window.AddToolsKeepsLast | ASAP/PathologyViewer.cpp:215-219 | after registration each name holds the last tool loaded under it |
| Window.AddToolsKeepsOthers | ASAP/PathologyViewer.cpp:215-219 | entries under names no loaded tool carries keep their value |
| Window.CheckedButtons | ASAP/ASAP_Window.cpp:73-80 | a toolbar button is checked iff a "pan" entry is registered and the button's object name is "pan" |
| Window.Startup | ASAP/ASAP_Window.cpp:73-98 | without a file argument the result is the constructed window; with one, it is that window after `openFile(args[1], "default")`, and the outcome is reported. A button is checked iff a "pan" tool is registered and the button is named "pan" |
| Window.Constructed | ASAP/ASAP_Window.cpp:66-83 | the stored budget is 1000·512·512·3 and the title is the one given; the viewer is disabled, shows no image and has no cache, so the budget call had no effect; its registry is the initial viewer's after loading the tools; it is not panning, has no scroll and no scheduled zoom; nothing is emitted; the active tool is the registered "pan" entry, or none without one |
| Window.StartupSelectsPanTool | ASAP/ASAP_Window.cpp:73-80 | with the pan tool loaded, start-up makes it the active tool with its flag set, and checks the button named after it |
| Window.PanRegistered | ASAP/PathologyViewer.cpp:215-219 | the registry keeps the last tool registered under "pan" |

## Left out

- The tile manager, tile cache, IO threads and workers, and prefetch thread.
  Their source is not part of this model.
  - `Viewer.Initialize` records only the cache budget and the overview level
    they are given.
  - The busy wait on the IO queue is cross-thread state.
- Qt geometry and floating-point view maths:
  - `mapToScene`, `fitInView`, the transform and field-of-view rectangles;
  - `_sceneScale`;
  - the `scalingTime` zoom limits and the `QTimeLine` animation;
  - `getBestLevelForDownSample`;
  - the field-of-view and bounding-box signals.
  An animation's end is the separate transition `Viewer.FinishZoom`, which
  applies the corrected count rule (Finding 1).
- Scroll-bar range clamping: scroll offsets are unbounded integers.
- Viewer.Pan: pans whether or not an image is open. The source's `pan` dereferences the image for its field-of-view signal and is undefined without one; the viewer is disabled then, so it receives no mouse events.
- Viewer.Zoom: the count is an `int`. The source's float `_numScheduledScalings` only ever receives integral steps, and float rounding of large counts is not modelled.
- Pyramid.SceneRect: exact reals. The conversion of the padded extents to `float`, which is exact only up to 2^24, is not modelled.
- Viewer.Initialize: requires at least one level. The window's `Image` type has every valid image carry at least one level, so the reader is assumed to guarantee it. The unsigned wrap of `getNumberOfLevels() - 1` for zero levels is not modelled.
- Window.LowerChar: maps ASCII upper-case letters only. `QString::toLower` also folds non-ASCII letters.
- Window.Lower: lower-cases ASCII letters only, through `LowerChar`, for the same reason.
- Window.FileNamePart and Window.DirPath: split on "/" only. Windows back-slash separators and the other normalisation `QFileInfo` does are not modelled.
- Qt's suppression of input events for a disabled viewer. `Viewer.Dispatch` routes events whether or not the viewer is enabled.
- The status-bar position message of the viewer's mouse-move handler. The message's 5-ms timeout in `on_actionClose_triggered`.
- The pan and zoom sensitivity setters. They are float clamps that no modelled operation reads.
- Settings persistence (window size and geometry), menus, the context menu, the minimap and scale bar, the about dialog, the F1 shortcut list and `keyPressEvent` forwarding to extensions.
- `QPluginLoader` loading and the extensions' toolbars, docks and menus.
  Loaded plugins are given as their tools and `canClose` answers.
- The `if (view)` null checks of the window's cache functions: the window always owns its viewer.
- FileFilters: the extension lists are taken in the order given.
  The sorted, duplicate-free order of `std::set` is the caller's responsibility.
- The window destructor's close and the window-title version string: the title is a parameter of `Window.Startup`.

## Findings

| source | as written | input that shows it | evidently intended | confidence | as-written member | corrected member |
|---|---|---|---|---|---|---|
| ASAP/PathologyViewer.cpp:195-200 | `zoomFinished` decrements a positive count and increments every other one, including 0 | with an image open and count 0, a wheel delta of -60 gives 0 steps; its animation's end moves 0 to 1; the next -60 delta (outward) keeps 1, so an outward scroll zooms in | one finished animation moves the count one step toward zero, and 0 stays 0 | medium, not executed | Viewer.SubNotchWheelZoomsIn | Viewer.ZoomFinished |
| ASAP/PathologyViewer.cpp:230-237 | `setActiveTool` only checks that an entry exists, then dereferences it | a tool button named "measure" with no registered tool: `changeActiveTool` inserts a null entry; `hasTool("measure")` then holds, and `setActiveTool("measure")` dereferences null | a null entry is treated like a missing one and leaves the viewer unchanged | medium, not executed | Viewer.NullEntryCrashesSetActiveTool | Viewer.SetActiveTool |

=== FILE: basics.dfy ===
/** Small shared vocabulary of the model: optional values (the null
    pointers and null shared pointers of the viewer), integer points (QPoint)
    and C++ integer division, which truncates toward zero. */
module Basics {

  /** A value that may be absent: a null pointer or an empty slot. */
  datatype Option<+T> = None | Some(value: T) {
    /** The wrapped value, or `default` when absent. */
    function GetOr(default: T): T {
      match this
      case Some(v) => v
      case None => default
    }
  }

  /** An integer point, as in widget coordinates. */
  datatype Point = Point(x: int, y: int) {
    function Plus(other: Point): Point {
      Point(x + other.x, y + other.y)
    }
    function Minus(other: Point): Point {
      Point(x - other.x, y - other.y)
    }
  }

  const Origin: Point := Point(0, 0)

  /** Integer division as C++ performs it for a positive divisor: the
      quotient is rounded toward zero, so `-7 / 2 == -3` rather than
      Dafny's Euclidean `-4`. */
  function TruncDiv(a: int, b: int): (q: int)
    requires b > 0
    ensures a >= 0 ==> 0 <= q && q * b <= a < q * b + b
    ensures a < 0 ==> q <= 0 && q * b - b < a <= q * b
  {
    if a >= 0 then
      DivBounds(a, b);
      a / b
    else
      DivBounds(-a, b);
      NegateProduct((-a) / b, b);
      -((-a) / b)
  }

  /** Euclidean division of a natural number brackets it between multiples. */
  lemma DivBounds(n: nat, b: int)
    requires b > 0
    ensures 0 <= n / b && (n / b) * b <= n < (n / b) * b + b
  {
    assert n == (n / b) * b + n % b;
  }

  lemma NegateProduct(q: int, b: int)
    ensures (-q) * b == -(q * b)
  {
  }
}

=== FILE: file_filters.dfy ===
/** The open dialog's filter string and how the chosen filter is read back
    into a factory name. The window lists one "All supported types" entry
    followed by one entry per loaded image factory, joined with ";;" (the
    file dialog's entry separator); the selected entry's text before the
    first "(" , trimmed, names the factory to open the file with. */
module FileFilters {

  /** An image factory as the factory registry reports it: its name and its
      extensions in the registry's (sorted set) order. */
  datatype Factory = Factory(name: string, extensions: seq<string>)

  const DefaultLabel: string := "All supported types"

  /** White space as QString::trimmed sees it: the ASCII controls 9 to 13,
      the space, U+0085, and the Unicode space, line and paragraph separators. */
  predicate IsSpace(c: char) {
    var n := c as int;
    n == 0x20 || 0x09 <= n <= 0x0D || n == 0x85 || n == 0xA0 || n == 0x1680
    || 0x2000 <= n <= 0x200A || n == 0x2028 || n == 0x2029 || n == 0x202F
    || n == 0x205F || n == 0x3000
  }

  /** No white space at either end. */
  predicate Tidy(s: string) {
    |s| == 0 || (!IsSpace(s[0]) && !IsSpace(s[|s| - 1]))
  }

  /** The first index at or after `i` that is not white space (|s| if none). */
  function SkipSpaces(s: string, i: nat): (j: nat)
    requires i <= |s|
    ensures i <= j <= |s|
    ensures forall k :: i <= k < j ==> IsSpace(s[k])
    ensures j < |s| ==> !IsSpace(s[j])
    decreases |s| - i
  {
    if i < |s| && IsSpace(s[i]) then SkipSpaces(s, i + 1) else i
  }

  /** Walking back from `j` no further than `lo`: the end of the last
      character before `j` that is not white space. */
  function BackSpaces(s: string, j: nat, lo: nat): (k: nat)
    requires lo <= j <= |s|
    ensures lo <= k <= j
    ensures forall m :: k <= m < j ==> IsSpace(s[m])
    ensures k > lo ==> !IsSpace(s[k - 1])
    decreases j - lo
  {
    if j > lo && IsSpace(s[j - 1]) then BackSpaces(s, j - 1, lo) else j
  }

  /** QString::trimmed: the slice of `s` left after dropping white space at
      both ends; everything dropped is white space. */
  function Trim(s: string): (r: string)
    ensures Tidy(r)
    ensures var a := SkipSpaces(s, 0);
            && a + |r| <= |s| && s[a..a + |r|] == r
            && (forall k :: 0 <= k < a ==> IsSpace(s[k]))
            && (forall k :: a + |r| <= k < |s| ==> IsSpace(s[k]))
    ensures Tidy(s) ==> r == s
  {
    var a := SkipSpaces(s, 0);
    var b := BackSpaces(s, |s|, a);
    assert s[a..b][..] == s[a..b];
    s[a..b]
  }

  /** A tidy name followed by one space trims back to the name. */
  lemma TrimTrailingSpace(t: string)
    requires Tidy(t)
    ensures Trim(t + " ") == t
  {
    var s := t + " ";
    assert s[|t|] == ' ';
    var a := SkipSpaces(s, 0);
    var b := BackSpaces(s, |s|, a);
    if |t| == 0 {
      assert a == 1;
    } else {
      assert s[0] == t[0];
      assert a == 0;
      assert s[|t| - 1] == t[|t| - 1];
      assert b == |t|;
      assert s[a..b] == t;
    }
  }

  /** The first piece of `split(c)`: everything before the first `c`, or
      the whole string when there is none. */
  function BeforeFirst(s: string, c: char): (r: string)
    ensures c !in r
    ensures |r| <= |s| && r == s[..|r|]
    ensures |r| < |s| ==> s[|r|] == c
    decreases |s|
  {
    if |s| == 0 || s[0] == c then [] else [s[0]] + BeforeFirst(s[1..], c)
  }

  /** The length of the patterns of `exts`: three characters " *." plus the
      extension, for each extension. */
  function PatternsLength(exts: seq<string>): nat
    decreases |exts|
  {
    if |exts| == 0 then 0 else 3 + |exts[0]| + PatternsLength(exts[1..])
  }

  /** " *.e" for every extension, in order. */
  function ExtPatterns(exts: seq<string>): (r: string)
    ensures |exts| == 0 <==> r == []
    ensures |r| > 0 ==> r[0] == ' '
    ensures |r| == PatternsLength(exts)
    decreases |exts|
  {
    if |exts| == 0 then [] else " *." + exts[0] + ExtPatterns(exts[1..])
  }

  /** The patterns of two lists of extensions are the two patterns side by side. */
  lemma {:induction false} ExtPatternsAppend(a: seq<string>, b: seq<string>)
    ensures ExtPatterns(a + b) == ExtPatterns(a) + ExtPatterns(b)
    ensures PatternsLength(a + b) == PatternsLength(a) + PatternsLength(b)
    decreases |a|
  {
    if |a| > 0 {
      var ab := a + b;
      assert ab[0] == a[0] && ab[1..] == a[1..] + b;
      ExtPatternsAppend(a[1..], b);
      assert ExtPatterns(ab) == " *." + a[0] + (ExtPatterns(a[1..]) + ExtPatterns(b));
    } else {
      assert a + b == b;
    }
  }

  /** Extension i occupies the characters of the patterns starting after the
      patterns of the extensions before it, as " *." followed by itself. */
  lemma ExtPatternsPiece(exts: seq<string>, i: nat)
    requires i < |exts|
    ensures PatternsLength(exts[..i + 1]) == PatternsLength(exts[..i]) + 3 + |exts[i]|
    ensures PatternsLength(exts[..i + 1]) <= |ExtPatterns(exts)|
    ensures ExtPatterns(exts)[PatternsLength(exts[..i]) .. PatternsLength(exts[..i + 1])] == " *." + exts[i]
  {
    var before, rest := exts[..i], exts[i + 1..];
    assert exts[..i + 1] == before + [exts[i]];
    assert exts == before + [exts[i]] + rest;
    ExtPatternsAppend(before, [exts[i]]);
    ExtPatternsAppend(before + [exts[i]], rest);
    assert ExtPatterns([exts[i]]) == " *." + exts[i] by {
      assert [exts[i]][1..] == [];
    }
  }

  /** The first entry: every supported extension of every factory, after
      the default label. */
  function DefaultFilter(allExtensions: seq<string>): (r: string)
    ensures |r| == |DefaultLabel| + 3 + |ExtPatterns(allExtensions)|
    ensures r[..|DefaultLabel|] == DefaultLabel
    ensures r[|DefaultLabel|] == ' ' && r[|DefaultLabel| + 1] == '(' && r[|r| - 1] == ')'
    ensures r[|DefaultLabel| + 2 .. |r| - 1] == ExtPatterns(allExtensions)
  {
    DefaultLabel + " (" + ExtPatterns(allExtensions) + ")"
  }

  /** One factory's entry; the extension set must not be empty, since the
      source dereferences its first element. */
  function FactoryFilter(f: Factory): (r: string)
    requires |f.extensions| >= 1
    ensures |r| == |f.name| + 5 + |f.extensions[0]| + |ExtPatterns(f.extensions[1..])|
    ensures r[..|f.name|] == f.name
    ensures r[|f.name|..|f.name| + 4] == " (*." && r[|r| - 1] == ')'
    ensures r[|f.name| + 4 .. |f.name| + 4 + |f.extensions[0]|] == f.extensions[0]
    ensures r[|f.name| + 4 + |f.extensions[0]| .. |r| - 1] == ExtPatterns(f.extensions[1..])
  {
    f.name + " " + "(*." + f.extensions[0] + ExtPatterns(f.extensions[1..]) + ")"
  }

  predicate AllHaveExtensions(factories: seq<Factory>) {
    forall i :: 0 <= i < |factories| ==> |factories[i].extensions| >= 1
  }

  /** The factory entries, each preceded by the ";;" separator. */
  function FactorySuffix(factories: seq<Factory>): (r: string)
    requires AllHaveExtensions(factories)
    ensures |factories| == 0 <==> r == []
    ensures |r| > 0 ==> |r| >= 2 && r[0] == ';' && r[1] == ';'
    decreases |factories|
  {
    if |factories| == 0 then []
    else ";;" + FactoryFilter(factories[0]) + FactorySuffix(factories[1..])
  }

  /** The filter list passed to the open dialog. */
  function FilterList(allExtensions: seq<string>, factories: seq<Factory>): (r: string)
    requires AllHaveExtensions(factories)
    ensures |r| >= |DefaultFilter(allExtensions)|
    ensures r[..|DefaultFilter(allExtensions)|] == DefaultFilter(allExtensions)
    ensures |factories| == 0 ==> r == DefaultFilter(allExtensions)
  {
    DefaultFilter(allExtensions) + FactorySuffix(factories)
  }

  /** The entries the dialog offers, in order. */
  function Entries(allExtensions: seq<string>, factories: seq<Factory>): (r: seq<string>)
    requires AllHaveExtensions(factories)
    ensures |r| == |factories| + 1
    ensures r[0] == DefaultFilter(allExtensions)
    ensures forall i :: 0 <= i < |factories| ==> r[i + 1] == FactoryFilter(factories[i])
  {
    var tail := FactoryEntries(factories);
    var r := [DefaultFilter(allExtensions)] + tail;
    assert forall i :: 0 <= i < |tail| ==> r[i + 1] == tail[i];
    r
  }

  function FactoryEntries(factories: seq<Factory>): (r: seq<string>)
    requires AllHaveExtensions(factories)
    ensures |r| == |factories|
    ensures forall i :: 0 <= i < |factories| ==> r[i] == FactoryFilter(factories[i])
    decreases |factories|
  {
    if |factories| == 0 then [] else [FactoryFilter(factories[0])] + FactoryEntries(factories[1..])
  }

  // ---------------------------------------------------------------------
  // Reading the list back

  /** The index of the first ";;" at or after `k`, or |s| when there is none. */
  function FindSeparator(s: string, k: nat): (r: nat)
    requires k <= |s|
    ensures k <= r <= |s|
    ensures r < |s| ==> r + 1 < |s| && s[r] == ';' && s[r + 1] == ';'
    ensures forall i :: k <= i < r ==> !(i + 1 < |s| && s[i] == ';' && s[i + 1] == ';')
    decreases |s| - k
  {
    if k + 1 >= |s| then |s|
    else if s[k] == ';' && s[k + 1] == ';' then k
    else FindSeparator(s, k + 1)
  }

  /** No ";;" anywhere in `e`. */
  predicate NoSeparator(e: string) {
    forall j :: 0 <= j < |e| - 1 ==> !(e[j] == ';' && e[j + 1] == ';')
  }

  /** The entries put back together with the separator between them. */
  function JoinEntries(parts: seq<string>): string
    requires |parts| >= 1
    decreases |parts|
  {
    if |parts| == 1 then parts[0] else parts[0] + ";;" + JoinEntries(parts[1..])
  }

  /** Splitting at every ";;", as the dialog does to find its entries: the
      entries hold no separator, joining them gives the string back, and
      each cut is at the leftmost ";;" (so no entry but the last ends in ";"). */
  function SplitEntries(s: string): (r: seq<string>)
    ensures |r| >= 1
    ensures JoinEntries(r) == s
    ensures forall k :: 0 <= k < |r| ==> NoSeparator(r[k])
    ensures forall k :: 0 <= k < |r| - 1 ==> |r[k]| == 0 || r[k][|r[k]| - 1] != ';'
    decreases |s|
  {
    var i := FindSeparator(s, 0);
    if i == |s| then [s]
    else
      var rest := SplitEntries(s[i + 2..]);
      assert ([s[..i]] + rest)[1..] == rest;
      assert s == s[..i] + ";;" + s[i + 2..];
      [s[..i]] + rest
  }

  /** A string with no ";" in it is one entry, and it ends at the next separator. */
  lemma {:induction false} SplitAtSeparator(a: string, b: string)
    requires ';' !in a
    ensures SplitEntries(a) == [a]
    ensures SplitEntries(a + ";;" + b) == [a] + SplitEntries(b)
  {
    var s := a + ";;" + b;
    var i := FindSeparator(s, 0);
    assert s[|a|] == ';' && s[|a| + 1] == ';';
    assert i == |a|;
    assert s[..i] == a;
    assert s[i + 2..] == b;
  }

  predicate NoSemicolon(s: string) {
    ';' !in s
  }

  predicate NoSemicolons(xs: seq<string>) {
    forall i :: 0 <= i < |xs| ==> NoSemicolon(xs[i])
  }

  lemma {:induction false} PatternsHaveNoSemicolon(exts: seq<string>)
    requires NoSemicolons(exts)
    ensures NoSemicolon(ExtPatterns(exts))
    decreases |exts|
  {
    if |exts| > 0 {
      PatternsHaveNoSemicolon(exts[1..]);
      assert NoSemicolon(exts[0]);
      var r := " *." + exts[0] + ExtPatterns(exts[1..]);
      forall i | 0 <= i < |r|
        ensures r[i] != ';'
      {
        if i < 3 {
        } else if i < 3 + |exts[0]| {
          assert r[i] == exts[0][i - 3];
        } else {
          assert r[i] == ExtPatterns(exts[1..])[i - 3 - |exts[0]|];
        }
      }
    }
  }

  /** Names and extensions free of ";", which would otherwise read as separators. */
  predicate SeparatorFree(allExtensions: seq<string>, factories: seq<Factory>) {
    && NoSemicolons(allExtensions)
    && forall i :: 0 <= i < |factories| ==>
         NoSemicolon(factories[i].name) && NoSemicolons(factories[i].extensions)
  }

  lemma FactoryFilterHasNoSemicolon(f: Factory)
    requires |f.extensions| >= 1
    requires NoSemicolon(f.name) && NoSemicolons(f.extensions)
    ensures NoSemicolon(FactoryFilter(f))
  {
    assert NoSemicolon(f.extensions[0]);
    PatternsHaveNoSemicolon(f.extensions[1..]);
  }

  /** One factory's share of the suffix: a separator and its entry. */
  lemma SuffixUnfolds(head: string, factories: seq<Factory>)
    requires AllHaveExtensions(factories) && |factories| > 0
    ensures head + FactorySuffix(factories) ==
            head + ";;" + (FactoryFilter(factories[0]) + FactorySuffix(factories[1..]))
  {
    var f := FactoryFilter(factories[0]);
    var rest := FactorySuffix(factories[1..]);
    assert FactorySuffix(factories) == ";;" + f + rest;
    AppendAssoc(";;", f, rest);
    AppendAssoc(head, ";;", f + rest);
  }

  lemma AppendAssoc(a: string, b: string, c: string)
    ensures a + b + c == a + (b + c)
  {
  }

  lemma {:induction false} SplitSuffix(head: string, factories: seq<Factory>)
    requires AllHaveExtensions(factories)
    requires NoSemicolon(head)
    requires forall i :: 0 <= i < |factories| ==>
               NoSemicolon(factories[i].name) && NoSemicolons(factories[i].extensions)
    ensures SplitEntries(head + FactorySuffix(factories)) == [head] + FactoryEntries(factories)
    decreases |factories|
  {
    if |factories| == 0 {
      assert head + FactorySuffix(factories) == head;
      SplitAtSeparator(head, []);
    } else {
      var f := FactoryFilter(factories[0]);
      var rest := factories[1..];
      FactoryFilterHasNoSemicolon(factories[0]);
      assert forall i :: 0 <= i < |rest| ==> rest[i] == factories[i + 1];
      var tail := f + FactorySuffix(rest);
      calc {
        SplitEntries(head + FactorySuffix(factories));
        { SuffixUnfolds(head, factories); }
        SplitEntries(head + ";;" + tail);
        { SplitAtSeparator(head, tail); }
        [head] + SplitEntries(tail);
        { SplitSuffix(f, rest); }
        [head] + ([f] + FactoryEntries(rest));
      }
    }
  }

  /** The dialog recovers exactly the entries the window built, in order. */
  lemma FilterListSplitsIntoEntries(allExtensions: seq<string>, factories: seq<Factory>)
    requires AllHaveExtensions(factories)
    requires SeparatorFree(allExtensions, factories)
    ensures SplitEntries(FilterList(allExtensions, factories)) == Entries(allExtensions, factories)
  {
    PatternsHaveNoSemicolon(allExtensions);
    SplitSuffix(DefaultFilter(allExtensions), factories);
  }

  // ---------------------------------------------------------------------
  // Factory name of the chosen entry

  /** `selectedFilter.split("(")[0].trimmed()`. */
  function SelectedFactory(selectedFilter: string): (r: string)
    ensures '(' !in r
    ensures Tidy(r)
  {
    Trim(BeforeFirst(selectedFilter, '('))
  }

  /** The factory name handed to `openFile`: the default entry's label means
      "let the registry choose". */
  function OpenFactoryName(selected: string): (r: string)
    ensures selected == DefaultLabel ==> r == "default"
    ensures selected != DefaultLabel ==> r == selected
  {
    if selected == DefaultLabel then "default" else selected
  }

  /** The text before the first "(" of `a + "(" + b`, when `a` has none, is `a`. */
  lemma BeforeFirstOfJoin(a: string, b: string)
    requires '(' !in a
    ensures BeforeFirst(a + "(" + b, '(') == a
  {
    var s := a + "(" + b;
    assert s[|a|] == '(';
  }

  /** The default entry is its label and a space, then "(" and the patterns. */
  lemma DefaultFilterSplitsAtParen(allExtensions: seq<string>)
    ensures DefaultFilter(allExtensions) == (DefaultLabel + " ") + "(" + (ExtPatterns(allExtensions) + ")")
  {
  }

  /** The default label is tidy and, followed by a space, holds no "(". */
  lemma DefaultLabelIsPlain()
    ensures Tidy(DefaultLabel) && '(' !in DefaultLabel + " "
  {
    var head := DefaultLabel + " ";
    assert forall k :: 0 <= k < |head| ==> head[k] != '(';
  }

  /** The default entry reads back as its label, which opens with "default". */
  lemma DefaultEntryOpensWithDefault(allExtensions: seq<string>)
    ensures SelectedFactory(DefaultFilter(allExtensions)) == DefaultLabel
    ensures OpenFactoryName(SelectedFactory(DefaultFilter(allExtensions))) == "default"
  {
    DefaultFilterSplitsAtParen(allExtensions);
    DefaultLabelIsPlain();
    BeforeFirstOfJoin(DefaultLabel + " ", ExtPatterns(allExtensions) + ")");
    TrimTrailingSpace(DefaultLabel);
  }

  /** A factory entry reads back as the factory's name, provided the name has
      no "(" and no white space at its ends. */
  lemma FactoryEntryRoundTrip(f: Factory)
    requires |f.extensions| >= 1
    requires '(' !in f.name
    requires Tidy(f.name)
    ensures SelectedFactory(FactoryFilter(f)) == f.name
  {
    var rest := "*." + f.extensions[0] + ExtPatterns(f.extensions[1..]) + ")";
    assert FactoryFilter(f) == (f.name + " ") + "(" + rest;
    assert '(' !in f.name + " ";
    BeforeFirstOfJoin(f.name + " ", rest);
    TrimTrailingSpace(f.name);
  }
}

=== FILE: pan_tool.dfy ===
/** The basic pan tool: left-button drags pan the viewer it is attached to.
    Its handlers are transitions on the viewer's state; the tool's own
    state is whether it has a viewer and its lazily created toolbar button. */
module PanTool {
  import opened Basics
  import Viewer

  /** The toolbar action of a tool. */
  datatype ToolAction = ToolAction(text: string, objectName: string, iconPath: string, shortcut: string)

  datatype Tool = Tool(hasViewer: bool, button: Option<ToolAction>)

  /** The viewer state after a tool handler, and whether the tool accepted
      the event (when it does not, the event keeps its previous state). */
  datatype Response = Response(viewer: Viewer.State, accepted: bool)

  /** The name the tool registers under. */
  function Name(): (n: string)
    ensures n == "pan"
  {
    "pan"
  }

  /** The button `GetToolButton` creates: text "Pan", named after the tool,
      with its icon and the shortcut "x". */
  const PanButton: ToolAction := ToolAction("Pan", Name(), ":/basictools_icons/pan.png", "x")

  /** The only button a pan tool ever holds is the one it created itself. */
  predicate WellFormed(t: Tool) {
    t.button.Some? ==> t.button.value == PanButton
  }

  /** Press: start panning at the pointer, whatever the button, and accept. */
  function MousePress(t: Tool, v: Viewer.State, pos: Point): (r: Response)
    ensures !t.hasViewer ==> r == Response(v, false)
    ensures t.hasViewer ==> r.accepted && r.viewer.pan
    ensures t.hasViewer && !v.pan ==> r.viewer.prevPan == pos
    ensures t.hasViewer && v.pan ==> r.viewer == v
    ensures r.viewer == v.(pan := r.viewer.pan, prevPan := r.viewer.prevPan)
  {
    if t.hasViewer then Response(Viewer.TogglePan(v, true, pos), true) else Response(v, false)
  }

  /** Release: stop panning and accept. */
  function MouseRelease(t: Tool, v: Viewer.State): (r: Response)
    ensures !t.hasViewer ==> r == Response(v, false)
    ensures t.hasViewer ==> r.accepted && !r.viewer.pan
    ensures t.hasViewer && v.pan ==> r.viewer.prevPan == Origin
    ensures t.hasViewer && !v.pan ==> r.viewer == v
    ensures r.viewer == v.(pan := r.viewer.pan, prevPan := r.viewer.prevPan)
  {
    if t.hasViewer then Response(Viewer.StopPan(v), true) else Response(v, false)
  }

  /** Move: pan to the pointer, and accept, only while the viewer pans;
      otherwise nothing happens. */
  function MouseMove(t: Tool, v: Viewer.State, pos: Point): (r: Response)
    ensures r.accepted <==> t.hasViewer && v.pan
    ensures r.accepted ==> r.viewer == Viewer.Pan(v, pos) && r.viewer.prevPan == pos
    ensures !r.accepted ==> r.viewer == v
  {
    if t.hasViewer && Viewer.IsPanning(v) then Response(Viewer.Pan(v, pos), true) else Response(v, false)
  }

  /** Returns the tool's button, creating it on the first call only; its
      object name is the tool's name, which the main window looks for. */
  function GetToolButton(t: Tool): (r: (Tool, ToolAction))
    requires WellFormed(t)
    ensures WellFormed(r.0)
    ensures r.0.button == Some(r.1)
    ensures r.1.objectName == Name()
    ensures t.button.Some? ==> r == (t, t.button.value)
    ensures r.0.hasViewer == t.hasViewer
  {
    match t.button
    case Some(b) => (t, b)
    case None =>
      (t.(button := Some(PanButton)), PanButton)
  }

  /** Asking for the button again hands back the very same button and
      leaves the tool as it was. */
  lemma ToolButtonCreatedOnce(t: Tool)
    requires WellFormed(t)
    ensures var (t1, b1) := GetToolButton(t);
            var (t2, b2) := GetToolButton(t1);
            b2 == b1 && t2 == t1
  {
  }

  /** A left press through the viewer reaches an active pan tool and starts
      the pan there; the moves that follow are then panned by the viewer
      itself, and the left release reaches the tool again and stops it. */
  lemma LeftDragThroughViewer(t: Tool, v: Viewer.State, start: Point, path: seq<Point>)
    requires t.hasViewer && !v.pan && v.active.Some?
    requires Name() in v.tools && v.tools[Name()] == v.active
    ensures var d := Viewer.Dispatch(v, Viewer.Press(Viewer.LeftButton, start));
            && d.delivery == Viewer.ForwardedTo(v.active.value)
            && var pressed := MousePress(t, d.viewer, start).viewer;
               && pressed.pan && pressed.prevPan == start
               && Viewer.MoveAlong(pressed, path) == Viewer.PanAlong(pressed, path)
               && var moved := Viewer.MoveAlong(pressed, path);
                  && Viewer.Dispatch(moved, Viewer.Release(Viewer.LeftButton, start)).delivery
                     == Viewer.ForwardedTo(v.active.value)
                  && !MouseRelease(t, moved).viewer.pan
  {
    var pressed := MousePress(t, v, start).viewer;
    Viewer.MovesWhilePanningArePans(pressed, path);
    if |path| > 0 {
      Viewer.PanAlongTelescopes(pressed, path);
    }
  }

  /** The viewer only forwards a move when it is not panning, so the pan
      tool's move handler, reached through the viewer, never pans. */
  lemma MoveReachingToolNeverPans(t: Tool, v: Viewer.State, pos: Point)
    requires Viewer.Dispatch(v, Viewer.Move(pos)).delivery.ForwardedTo?
    ensures MouseMove(t, v, pos) == Response(v, false)
  {
  }
}

=== FILE: pyramid.dfy ===
/** Integer rules the viewer applies to the image pyramid when it opens an
    image: which level serves as the overview, how far a level's extent is
    padded to whole tiles, and the square scene rectangle laid around it.
    The image itself is abstract: a sequence of level dimensions, level 0
    being full resolution and the last level the coarsest. */
module Pyramid {

  /** Edge of a tile in image pixels at the level it belongs to. */
  const TileSize: nat := 512

  /** Width and height of one pyramid level. */
  datatype Dims = Dims(width: nat, height: nat)

  type Levels = seq<Dims>

  /** A rectangle with exact real coordinates: the scene rectangle mixes
      integer halves with a factor of 1.5. */
  datatype RectF = RectF(x: real, y: real, w: real, h: real) {
    /** True when the axis-aligned box [left, right] x [top, bottom] lies inside. */
    predicate Contains(left: real, top: real, right: real, bottom: real) {
      x <= left && y <= top && right <= x + w && bottom <= y + h
    }
  }

  /** A level large enough for the overview: both edges strictly exceed one tile. */
  predicate ExceedsTile(d: Dims) {
    d.width > TileSize && d.height > TileSize
  }

  /** Searches the levels below `i` from the top down for one that exceeds a
      tile; falls back to the coarsest level when none does. */
  function ScanDown(levels: Levels, i: nat): (r: nat)
    requires 1 <= |levels|
    requires i <= |levels|
    ensures r < |levels|
    ensures (exists j :: 0 <= j < i && ExceedsTile(levels[j])) ==>
              r < i && ExceedsTile(levels[r]) && forall j :: r < j < i ==> !ExceedsTile(levels[j])
    ensures (forall j :: 0 <= j < i ==> !ExceedsTile(levels[j])) ==> r == |levels| - 1
    decreases i
  {
    if i == 0 then |levels| - 1
    else if ExceedsTile(levels[i - 1]) then i - 1
    else ScanDown(levels, i - 1)
  }

  /** The level `initialize` hands to the tile manager as its coarsest
      level: the highest index whose width and height both exceed 512, or
      the last index when no level does. */
  function OverviewLevel(levels: Levels): (r: nat)
    requires 1 <= |levels|
    ensures r < |levels|
    ensures (exists j :: 0 <= j < |levels| && ExceedsTile(levels[j])) ==>
              ExceedsTile(levels[r]) && forall j :: r < j < |levels| ==> !ExceedsTile(levels[j])
    ensures (forall j :: 0 <= j < |levels| ==> !ExceedsTile(levels[j])) ==> r == |levels| - 1
  {
    ScanDown(levels, |levels|)
  }

  /** A level extent rounded up to whole tiles, always adding a tile when
      the extent is already a multiple of the tile size. The result is the
      one multiple of 512 in (d, d + 512]. */
  function PaddedExtent(d: nat): (r: nat)
    ensures r % TileSize == 0
    ensures d < r <= d + TileSize
  {
    (d / TileSize + 1) * TileSize
  }

  function Max(a: nat, b: nat): nat {
    if a > b then a else b
  }

  /** The longer of the two padded edges of a level. */
  function LongestPadded(d: Dims): (r: nat)
    ensures r % TileSize == 0
    ensures d.width < r && d.height < r
    ensures r == PaddedExtent(d.width) || r == PaddedExtent(d.height)
    ensures PaddedExtent(d.width) <= r && PaddedExtent(d.height) <= r
  {
    Max(PaddedExtent(d.width), PaddedExtent(d.height))
  }

  /** The scene rectangle of the overview level: a square of side three
      times the longest padded edge, anchored at the level's (integer-halved)
      centre. It holds the whole level with a margin of at least one padded
      edge on every side. */
  function SceneRect(d: Dims): (r: RectF)
    ensures r.w == r.h == 3.0 * LongestPadded(d) as real
    ensures r.Contains(0.0, 0.0, d.width as real, d.height as real)
    ensures r.x <= -(LongestPadded(d) as real) && r.y <= -(LongestPadded(d) as real)
    ensures r.x + r.w >= (d.width + LongestPadded(d)) as real
    ensures r.y + r.h >= (d.height + LongestPadded(d)) as real
  {
    var longest := LongestPadded(d) as real;
    RectF((d.width / 2) as real - 1.5 * longest,
          (d.height / 2) as real - 1.5 * longest,
          3.0 * longest,
          3.0 * longest)
  }
}

=== FILE: viewer.dfy ===
/** The interaction state of the pathology viewer as an immutable record,
    and every handler of the viewer as a pure transition on it: panning,
    mouse and key routing, the tool registry, the scheduled-zoom counter,
    the tile-cache budget and opening/closing an image. */
module Viewer {
  import opened Basics
  import Pyramid

  /** Identity of a tool object (the shared pointer the registry holds). */
  type ToolId = nat

  /** A tool plugin as the viewer sees it: an object and the name it reports. */
  datatype ToolRef = ToolRef(id: ToolId, name: string)

  /** Byte budget the viewer gives its tile cache: 1000 tiles of 512 x 512 RGB
      pixels. The product is 786432000, which fits the 32-bit `int` the
      constructor computes it in. */
  const CacheSize: nat := 1000 * 512 * 512 * 3

  datatype State = State(
    enabled: bool,
    /** The open image, as its level dimensions. */
    image: Option<Pyramid.Levels>,
    /** The coarsest level handed to the tile manager; exists while the manager does. */
    overview: Option<nat>,
    sceneRect: Option<Pyramid.RectF>,
    /** Maximum byte size of the tile cache; `None` while no cache exists. */
    cache: Option<nat>,
    rightToLeft: bool,
    pan: bool,
    prevPan: Point,
    /** Horizontal and vertical scroll-bar values, unclamped. */
    scroll: Point,
    /** Registry from tool name to tool; a `None` entry is a null shared pointer. */
    tools: map<string, Option<ToolId>>,
    active: Option<ToolId>,
    /** The `active` flag each tool object was last given through `setActive`. */
    flags: map<ToolId, bool>,
    scheduled: int)

  /** The state the viewer's constructor leaves behind: an enabled widget
      with no image, tile manager or cache, not panning with the anchor at
      (0, 0), no tools and no scheduled zoom steps. */
  function Initial(rightToLeft: bool): (st: State)
    ensures st.enabled && st.rightToLeft == rightToLeft
    ensures st.image.None? && st.overview.None? && st.sceneRect.None? && st.cache.None?
    ensures !st.pan && st.prevPan == Origin && st.scroll == Origin
    ensures st.tools == map[] && st.active.None? && st.flags == map[]
    ensures st.scheduled == 0
  {
    State(true, None, None, None, None, rightToLeft, false, Origin, Origin, map[], None, map[], 0)
  }

  // ---------------------------------------------------------------------
  // Panning

  /** `isPanning`: a pan is in progress exactly when stopping would change
      the viewer. */
  function IsPanning(st: State): (b: bool)
    ensures b <==> StopPan(st) != st
  {
    st.pan
  }

  /** Starts (`on`) or stops panning. Asking for the mode already in force
      changes nothing, so an ongoing pan keeps its anchor; starting anchors
      the pan at `startPos`, stopping resets the anchor to the origin. */
  function TogglePan(st: State, on: bool, startPos: Point): (r: State)
    ensures r.pan == on
    ensures st.pan == on ==> r == st
    ensures on && !st.pan ==> r.prevPan == startPos
    ensures !on && st.pan ==> r.prevPan == Origin
    ensures r == st.(pan := r.pan, prevPan := r.prevPan)
  {
    if on then
      if st.pan then st else st.(pan := true, prevPan := startPos)
    else
      if !st.pan then st else st.(pan := false, prevPan := Origin)
  }

  /** `togglePan(false)` as called without a position: the default QPoint(). */
  function StopPan(st: State): (r: State)
    ensures !r.pan
    ensures st.pan ==> r.prevPan == Origin
    ensures !st.pan ==> r == st
  {
    TogglePan(st, false, Origin)
  }

  /** Signed horizontal scroll change for a pointer motion of `dx`: the view
      follows the pointer, mirrored in a right-to-left layout. */
  function HorizontalScroll(rightToLeft: bool, dx: int): int {
    if rightToLeft then dx else -dx
  }

  /** Moves the pan anchor to `panTo` and scrolls by the pointer's motion
      since the previous anchor, so the content under the pointer follows it. */
  function Pan(st: State, panTo: Point): (r: State)
    ensures r.prevPan == panTo
    ensures r.scroll.y == st.scroll.y - (panTo.y - st.prevPan.y)
    ensures r.scroll.x == st.scroll.x + HorizontalScroll(st.rightToLeft, panTo.x - st.prevPan.x)
    ensures r == st.(prevPan := panTo, scroll := r.scroll)
  {
    var delta := panTo.Minus(st.prevPan);
    st.(prevPan := panTo,
        scroll := Point(st.scroll.x + HorizontalScroll(st.rightToLeft, delta.x), st.scroll.y - delta.y))
  }

  /** A run of pan calls, one per pointer position, in order. */
  function PanAlong(st: State, path: seq<Point>): State
    decreases |path|
  {
    if |path| == 0 then st else PanAlong(Pan(st, path[0]), path[1..])
  }

  /** Panning back to where the anchor was restores the scroll offset. */
  lemma PanThereAndBack(st: State, p: Point)
    ensures Pan(Pan(st, p), st.prevPan).scroll == st.scroll
    ensures Pan(Pan(st, p), st.prevPan) == st
  {
  }

  /** Successive pans telescope: the scroll moves by the displacement from
      the first anchor to the last point only, whatever the path between. */
  lemma {:induction false} PanAlongTelescopes(st: State, path: seq<Point>)
    requires |path| > 0
    ensures PanAlong(st, path).prevPan == path[|path| - 1]
    ensures PanAlong(st, path).scroll ==
            Point(st.scroll.x + HorizontalScroll(st.rightToLeft, path[|path| - 1].x - st.prevPan.x),
                  st.scroll.y - (path[|path| - 1].y - st.prevPan.y))
    ensures PanAlong(st, path) == st.(prevPan := path[|path| - 1], scroll := PanAlong(st, path).scroll)
    decreases |path|
  {
    var next := Pan(st, path[0]);
    if |path| == 1 {
      assert path[1..] == [];
    } else {
      PanAlongTelescopes(next, path[1..]);
      assert path[1..][|path[1..]| - 1] == path[|path| - 1];
    }
  }

  // ---------------------------------------------------------------------
  // Mouse and key routing

  datatype Button = LeftButton | MiddleButton | RightButton | OtherButton

  datatype InputEvent =
    | Press(button: Button, pos: Point)
    | Release(button: Button, pos: Point)
    | Move(pos: Point)
    | DoubleClick(pos: Point)
    | KeyPress

  /** Where an input event ends up: consumed by the viewer itself, handed
      to a tool (which then decides whether it is accepted), or ignored. */
  datatype Delivery = TakenByViewer | ForwardedTo(tool: ToolId) | Ignored

  datatype Dispatched = Dispatched(viewer: State, delivery: Delivery)

  /** The viewer's event handlers. The middle button toggles panning and
      never reaches the tool; a move while panning pans and never reaches
      the tool; only left-button presses and releases go to the active
      tool, while moves, double clicks and keys go to it whatever the button. */
  function Dispatch(st: State, ev: InputEvent): (r: Dispatched)
    ensures ev.Press? && ev.button == MiddleButton ==>
              r == Dispatched(TogglePan(st, true, ev.pos), TakenByViewer)
    ensures ev.Release? && ev.button == MiddleButton ==>
              r == Dispatched(StopPan(st), TakenByViewer)
    ensures ev.Move? && st.pan ==> r == Dispatched(Pan(st, ev.pos), TakenByViewer)
    ensures (ev.Press? || ev.Release?) ==>
              (r.delivery.ForwardedTo? <==> ev.button == LeftButton && st.active.Some?)
    ensures ev.Move? ==> (r.delivery.ForwardedTo? <==> !st.pan && st.active.Some?)
    ensures (ev.DoubleClick? || ev.KeyPress?) ==> (r.delivery.ForwardedTo? <==> st.active.Some?)
    ensures r.delivery.TakenByViewer? <==>
              ((ev.Press? || ev.Release?) && ev.button == MiddleButton) || (ev.Move? && st.pan)
    ensures r.delivery.ForwardedTo? ==> st.active == Some(r.delivery.tool) && r.viewer == st
    ensures r.delivery.Ignored? ==> r.viewer == st
  {
    match ev
    case Press(b, p) =>
      if b == MiddleButton then Dispatched(TogglePan(st, true, p), TakenByViewer)
      else if st.active.Some? && b == LeftButton then Dispatched(st, ForwardedTo(st.active.value))
      else Dispatched(st, Ignored)
    case Release(b, _) =>
      if b == MiddleButton then Dispatched(StopPan(st), TakenByViewer)
      else if st.active.Some? && b == LeftButton then Dispatched(st, ForwardedTo(st.active.value))
      else Dispatched(st, Ignored)
    case Move(p) =>
      if st.pan then Dispatched(Pan(st, p), TakenByViewer)
      else if st.active.Some? then Dispatched(st, ForwardedTo(st.active.value))
      else Dispatched(st, Ignored)
    case DoubleClick(_) =>
      if st.active.Some? then Dispatched(st, ForwardedTo(st.active.value)) else Dispatched(st, Ignored)
    case KeyPress =>
      if st.active.Some? then Dispatched(st, ForwardedTo(st.active.value)) else Dispatched(st, Ignored)
  }

  /** The viewer states that a sequence of pointer moves leaves behind. */
  function MoveAlong(st: State, path: seq<Point>): State
    decreases |path|
  {
    if |path| == 0 then st else MoveAlong(Dispatch(st, Move(path[0])).viewer, path[1..])
  }

  /** While panning, moves are pans: dispatching them is `PanAlong`. */
  lemma {:induction false} MovesWhilePanningArePans(st: State, path: seq<Point>)
    requires st.pan
    ensures MoveAlong(st, path) == PanAlong(st, path)
    ensures MoveAlong(st, path).pan
    decreases |path|
  {
    if |path| > 0 {
      MovesWhilePanningArePans(Pan(st, path[0]), path[1..]);
    }
  }

  /** A whole middle-button drag: press at `start`, move along `path`, release.
      The scroll ends displaced by the pointer's total travel from `start`,
      and panning is over with its anchor reset. */
  lemma {:induction false} MiddleDrag(st: State, start: Point, path: seq<Point>, release: Point)
    requires !st.pan
    requires |path| > 0
    ensures var pressed := Dispatch(st, Press(MiddleButton, start)).viewer;
            var moved := MoveAlong(pressed, path);
            var released := Dispatch(moved, Release(MiddleButton, release)).viewer;
            && !released.pan
            && released.prevPan == Origin
            && released.scroll ==
                 Point(st.scroll.x + HorizontalScroll(st.rightToLeft, path[|path| - 1].x - start.x),
                       st.scroll.y - (path[|path| - 1].y - start.y))
  {
    var pressed := Dispatch(st, Press(MiddleButton, start)).viewer;
    MovesWhilePanningArePans(pressed, path);
    PanAlongTelescopes(pressed, path);
  }

  // ---------------------------------------------------------------------
  // Tool registry

  /** Registers a tool under its own name, replacing any entry of that name;
      a null tool is ignored. */
  function AddTool(st: State, tool: Option<ToolRef>): (r: State)
    ensures tool.None? ==> r == st
    ensures tool.Some? ==> r.tools.Keys == st.tools.Keys + {tool.value.name}
    ensures tool.Some? ==> r.tools[tool.value.name] == Some(tool.value.id)
    ensures forall n :: n in st.tools && (tool.None? || n != tool.value.name) ==> r.tools[n] == st.tools[n]
    ensures r == st.(tools := r.tools)
  {
    match tool
    case None => st
    case Some(t) => st.(tools := st.tools[t.name := Some(t.id)])
  }

  /** Whether any entry, even a null one, exists under `name`: exactly when
      a button of that name would not add an entry, and when it does not
      exist `setActiveTool` ignores the name. */
  function HasTool(st: State, name: string): (b: bool)
    ensures b <==> ChangeActiveTool(st, Some(name)).tools == st.tools
    ensures !b ==> SetActiveTool(st, name) == st
  {
    name in st.tools
  }

  /** Gives a tool object its `active` flag. */
  function SetFlag(flags: map<ToolId, bool>, id: ToolId, on: bool): (r: map<ToolId, bool>)
    ensures id in r && r[id] == on
    ensures forall t :: t in flags && t != id ==> t in r && r[t] == flags[t]
    ensures r.Keys == flags.Keys + {id}
  {
    flags[id := on]
  }

  /** The flags after the currently active tool, if any, was told it is no
      longer active. */
  function DeactivateCurrent(st: State): (r: map<ToolId, bool>)
    ensures st.active.None? ==> r == st.flags
    ensures st.active.Some? ==> r == SetFlag(st.flags, st.active.value, false)
  {
    match st.active
    case None => st.flags
    case Some(t) => SetFlag(st.flags, t, false)
  }

  /** A fault of the source: calling through a null tool pointer. */
  datatype Fault = NullToolDereference

  datatype Outcome = Done(state: State) | Crashed(fault: Fault)

  /** `setActiveTool` as written: the lookup only checks that an entry
      exists, so a null entry (left by `changeActiveTool`) is dereferenced. */
  function SetActiveToolAsWritten(st: State, name: string): (r: Outcome)
    ensures name !in st.tools ==> r == Done(st)
    ensures name in st.tools && st.tools[name].None? ==> r.Crashed?
    ensures name in st.tools && st.tools[name].Some? ==> r.Done? && r.state == SetActiveTool(st, name)
  {
    if name !in st.tools then Done(st)
    else
      var deactivated := DeactivateCurrent(st);
      match st.tools[name]
      case None => Crashed(NullToolDereference)
      case Some(t) => Done(st.(active := Some(t), flags := SetFlag(deactivated, t, true)))
  }

  /** `setActiveTool` with the evidently intended guard: a name that is not
      registered, or registered with a null tool, changes nothing; otherwise
      the previous tool is told it is inactive and the named tool becomes the
      active one with its flag set. */
  function SetActiveTool(st: State, name: string): (r: State)
    ensures name !in st.tools || st.tools[name].None? ==> r == st
    ensures name in st.tools && st.tools[name].Some? ==>
              && r.active == st.tools[name]
              && st.tools[name].value in r.flags && r.flags[st.tools[name].value]
              && (forall t :: t in st.flags && t != st.tools[name].value && Some(t) != st.active ==>
                    t in r.flags && r.flags[t] == st.flags[t])
              && (st.active.Some? && st.active != st.tools[name] ==>
                    st.active.value in r.flags && !r.flags[st.active.value])
    ensures r.flags.Keys <= st.flags.Keys + (if st.active.Some? then {st.active.value} else {})
                            + (if r.active.Some? then {r.active.value} else {})
    ensures r == st.(active := r.active, flags := r.flags)
  {
    if name in st.tools && st.tools[name].Some? then
      var t := st.tools[name].value;
      st.(active := Some(t), flags := SetFlag(DeactivateCurrent(st), t, true))
    else st
  }

  /** `changeActiveTool`, the slot every tool button triggers. The sender's
      object name is looked up with `operator[]`, which inserts a null entry
      for an unknown name. A different, non-null tool replaces the active one
      (which is told it is inactive); re-selecting the active tool leaves it
      active; a null lookup clears the active tool WITHOUT deactivating it.
      No sender, no change. */
  function ChangeActiveTool(st: State, sender: Option<string>): (r: State)
    ensures sender.None? ==> r == st
    ensures sender.Some? ==> sender.value in r.tools && r.tools.Keys == st.tools.Keys + {sender.value}
    ensures sender.Some? && sender.value !in st.tools ==>
              r.tools == st.tools[sender.value := None] && r.active.None? && r.flags == st.flags
    ensures sender.Some? && sender.value in st.tools ==> r.tools == st.tools
    ensures sender.Some? && r.tools[sender.value].Some? ==>
              r.active == r.tools[sender.value] && r.active.value in r.flags && r.flags[r.active.value]
    ensures sender.Some? && r.tools[sender.value].None? ==> r.active.None? && r.flags == st.flags
    ensures sender.Some? && st.active.Some? && r.tools[sender.value].Some? && st.active != r.tools[sender.value] ==>
              st.active.value in r.flags && !r.flags[st.active.value]
    ensures sender.Some? && st.active.Some? && r.active == st.active ==> r.flags == SetFlag(st.flags, st.active.value, true)
    ensures forall t :: t in st.flags && Some(t) != st.active && Some(t) != r.active ==>
              t in r.flags && r.flags[t] == st.flags[t]
    ensures r.flags.Keys <= st.flags.Keys + (if st.active.Some? then {st.active.value} else {})
                            + (if r.active.Some? then {r.active.value} else {})
    ensures r == st.(tools := r.tools, active := r.active, flags := r.flags)
  {
    match sender
    case None => st
    case Some(name) =>
      var tools := if name in st.tools then st.tools else st.tools[name := None];
      var newTool := tools[name];
      var flags := if st.active.Some? && newTool.Some? && st.active != newTool
                   then SetFlag(st.flags, st.active.value, false) else st.flags;
      match newTool
      case Some(t) => st.(tools := tools, active := Some(t), flags := SetFlag(flags, t, true))
      case None => st.(tools := tools, active := None, flags := flags)
  }

  /** The active tool is always one that was told it is active. */
  ghost predicate ActiveIsFlagged(st: State) {
    st.active.Some? ==> st.active.value in st.flags && st.flags[st.active.value]
  }

  /** Every registry transition keeps the active tool flagged as active. */
  lemma RegistryKeepsActiveFlagged(st: State, tool: Option<ToolRef>, name: string, sender: Option<string>)
    requires ActiveIsFlagged(st)
    ensures ActiveIsFlagged(AddTool(st, tool))
    ensures ActiveIsFlagged(SetActiveTool(st, name))
    ensures ActiveIsFlagged(ChangeActiveTool(st, sender))
  {
  }

  /** A button whose name no tool registered leaves a null entry behind:
      afterwards `hasTool` answers yes, no tool is active, and the tool that
      was active still carries its `active` flag. */
  lemma UnknownButtonLeavesNullEntry(st: State, name: string)
    requires name !in st.tools
    requires ActiveIsFlagged(st)
    ensures var r := ChangeActiveTool(st, Some(name));
            && HasTool(r, name)
            && r.active.None?
            && (st.active.Some? ==> r.flags[st.active.value])
  {
  }

  /** The null entry makes the as-written `setActiveTool` dereference null,
      although `hasTool` vouches for the name; the corrected one leaves the
      viewer as it was. */
  lemma NullEntryCrashesSetActiveTool()
    ensures var st := ChangeActiveTool(Initial(false), Some("measure"));
            && HasTool(st, "measure")
            && SetActiveToolAsWritten(st, "measure") == Crashed(NullToolDereference)
            && SetActiveTool(st, "measure") == st
  {
  }

  // ---------------------------------------------------------------------
  // Zooming

  /** Zoom steps of a wheel event: the angle delta in eighths of a degree,
      over 8 to degrees, over 15 to notches, each division truncating. */
  function WheelSteps(delta: int): (n: int)
    ensures -120 < delta < 120 ==> n == 0
    ensures delta >= 0 ==> n >= 0 && n * 120 <= delta < (n + 1) * 120
    ensures delta < 0 ==> n <= 0 && (n - 1) * 120 < delta <= n * 120
  {
    DivSteps(delta);
    TruncDiv(TruncDiv(delta, 8), 15)
  }

  lemma DivSteps(delta: int)
    ensures TruncDiv(TruncDiv(delta, 8), 15) == TruncDiv(delta, 120)
  {
    if delta >= 0 {
      NestedDiv(delta);
    } else {
      NestedDiv(-delta);
    }
  }

  lemma NestedDiv(a: nat)
    ensures (a / 8) / 15 == a / 120
  {
    var q := a / 120;
    var rest := a % 120;
    assert a == 120 * q + rest;
    assert a / 8 == 15 * q + rest / 8;
  }

  /** Adds `numSteps` scheduled scalings when an image is open. Steps in the
      direction already scheduled accumulate. Steps against it first cancel
      the backlog: when they outweigh it the sum is kept, and when the
      backlog is larger it is discarded and `numSteps` alone is scheduled.
      Either way the total never points against the latest request. */
  function Zoom(st: State, numSteps: int): (r: State)
    ensures st.image.None? ==> r == st
    ensures st.image.Some? ==> r.scheduled * numSteps >= 0
    ensures st.image.Some? && st.scheduled * numSteps >= 0 ==> r.scheduled == st.scheduled + numSteps
    ensures st.image.Some? && st.scheduled * numSteps < 0 ==>
              && (Abs(numSteps) >= Abs(st.scheduled) ==> r.scheduled == st.scheduled + numSteps)
              && (Abs(numSteps) < Abs(st.scheduled) ==> r.scheduled == numSteps)
              && Abs(r.scheduled) <= Abs(numSteps)
    ensures r == st.(scheduled := r.scheduled)
  {
    if st.image.None? then st
    else
      var s := st.scheduled + numSteps;
      if s * numSteps < 0 then st.(scheduled := numSteps) else st.(scheduled := s)
  }

  /** The wheel handler: the event's angle delta turned into zoom steps.
      Turning on in the direction already scheduled adds whole notches. */
  function Wheel(st: State, delta: int): (r: State)
    ensures -120 < delta < 120 && st.image.Some? ==> r == st
    ensures st.image.None? ==> r == st
    ensures st.image.Some? && st.scheduled >= 0 && delta >= 0 ==>
              r.scheduled == st.scheduled + WheelSteps(delta) && r.scheduled * 120 <= st.scheduled * 120 + delta
    ensures st.image.Some? && st.scheduled <= 0 && delta <= 0 ==>
              r.scheduled == st.scheduled + WheelSteps(delta) && r.scheduled * 120 >= st.scheduled * 120 + delta
    ensures st.image.Some? && st.scheduled * WheelSteps(delta) < 0 ==>
              && (Abs(WheelSteps(delta)) >= Abs(st.scheduled) ==> r.scheduled == st.scheduled + WheelSteps(delta))
              && (Abs(WheelSteps(delta)) < Abs(st.scheduled) ==> r.scheduled == WheelSteps(delta))
    ensures st.image.Some? && st.scheduled < 0 && delta >= 120 ==> 0 <= r.scheduled <= WheelSteps(delta)
    ensures st.image.Some? && st.scheduled > 0 && delta <= -120 ==> WheelSteps(delta) <= r.scheduled <= 0
    ensures r == st.(scheduled := r.scheduled)
  {
    Zoom(st, WheelSteps(delta))
  }

  /** Zoom requests applied in order. */
  function ZoomAll(st: State, steps: seq<int>): State
    decreases |steps|
  {
    if |steps| == 0 then st else ZoomAll(Zoom(st, steps[0]), steps[1..])
  }

  function Sum(xs: seq<int>): int
    decreases |xs|
  {
    if |xs| == 0 then 0 else xs[0] + Sum(xs[1..])
  }

  /** Requests that all zoom in (or all zoom out) from a backlog in the same
      direction pile up: the count grows by their total. */
  lemma {:induction false} SameDirectionAccumulates(st: State, steps: seq<int>, inward: bool)
    requires st.image.Some?
    requires if inward then st.scheduled >= 0 else st.scheduled <= 0
    requires forall i :: 0 <= i < |steps| ==> if inward then steps[i] >= 0 else steps[i] <= 0
    ensures ZoomAll(st, steps) == st.(scheduled := st.scheduled + Sum(steps))
    decreases |steps|
  {
    if |steps| > 0 {
      var next := Zoom(st, steps[0]);
      assert next.scheduled == st.scheduled + steps[0];
      SameDirectionAccumulates(next, steps[1..], inward);
    }
  }

  /** A request in the other direction that is smaller than the backlog
      throws the backlog away, so an undo of k notches after n > k notches
      does not leave n - k scheduled but k the other way. */
  lemma ReversalDiscardsLargerBacklog(st: State, n: int, k: int)
    requires st.image.Some? && st.scheduled == 0
    requires 0 < k < n
    ensures ZoomAll(st, [n, -k]).scheduled == -k
    ensures ZoomAll(st, [n, -n]).scheduled == 0
  {
    var up := Zoom(st, n);
    assert [n, -k][1..] == [-k] && [-k][1..] == [];
    assert ZoomAll(st, [n, -k]) == ZoomAll(up, [-k]);
    assert ZoomAll(up, [-k]) == Zoom(up, -k);
    assert [n, -n][1..] == [-n] && [-n][1..] == [];
    assert ZoomAll(st, [n, -n]) == ZoomAll(up, [-n]);
    assert ZoomAll(up, [-n]) == Zoom(up, -n);
  }

  /** `zoomFinished` as written: a positive count goes down by one and every
      other count, zero included, goes up by one. */
  function ZoomFinishedAsWritten(s: int): (r: int)
    ensures s > 0 ==> r == s - 1
    ensures s <= 0 ==> r == s + 1
    ensures r != s
  {
    if s > 0 then s - 1 else s + 1
  }

  /** `zoomFinished` as evidently intended: one finished animation moves
      the count one step toward zero, and a settled count stays settled. */
  function ZoomFinished(s: int): (r: int)
    ensures s == 0 ==> r == 0
    ensures s != 0 ==> r * s >= 0 && Abs(r) == Abs(s) - 1
    ensures r * s >= 0
  {
    if s > 0 then s - 1 else if s < 0 then s + 1 else 0
  }

  function Abs(x: int): nat {
    if x < 0 then -x else x
  }

  /** Applies `finish` `k` times. */
  function FinishAnimations(s: int, k: nat, asWritten: bool): int
    decreases k
  {
    if k == 0 then s
    else FinishAnimations(if asWritten then ZoomFinishedAsWritten(s) else ZoomFinished(s), k - 1, asWritten)
  }

  /** Once as many animations have finished as there are scheduled steps,
      the corrected count is settled at zero, and further ones keep it there. */
  lemma {:induction false} AnimationsSettle(s: int, k: nat)
    requires Abs(s) <= k
    ensures FinishAnimations(s, k, false) == 0
    decreases k
  {
    if k > 0 {
      AnimationsSettle(ZoomFinished(s), k - 1);
    }
  }

  /** The viewer-level transition of a finished zoom animation, with the
      corrected counting rule (see `ZoomFinishedAsWritten` for the code as
      written, which turns a zero count into one). */
  function FinishZoom(st: State): (r: State)
    ensures r == st.(scheduled := r.scheduled)
    ensures Abs(r.scheduled) <= Abs(st.scheduled)
    ensures st.scheduled != 0 ==> Abs(r.scheduled) == Abs(st.scheduled) - 1 && r.scheduled * st.scheduled >= 0
    ensures st.scheduled == 0 ==> r == st
  {
    st.(scheduled := ZoomFinished(st.scheduled))
  }

  /** With an image open, a small wheel movement (a fraction of a notch, as
      high-resolution wheels and touchpads send) schedules zero steps; when
      its animation finishes the as-written count becomes +1, and the next
      such movement (here outward, a negative delta) runs a zoom-in
      animation. The corrected count stays at zero. */
  lemma SubNotchWheelZoomsIn(st: State)
    requires st.image.Some? && st.scheduled == 0
    ensures var first := Wheel(st, -60);
            var settledAsWritten := first.(scheduled := ZoomFinishedAsWritten(first.scheduled));
            && Wheel(settledAsWritten, -60).scheduled == 1
            && Wheel(FinishZoom(first), -60).scheduled == 0
  {
  }

  // ---------------------------------------------------------------------
  // Tile-cache budget, opening and closing

  /** The cache's byte budget, or 0 while no cache exists. */
  function GetCacheSize(st: State): (r: nat)
    ensures st.cache.None? ==> r == 0
    ensures st.cache.Some? ==> r == st.cache.value
  {
    st.cache.GetOr(0)
  }

  /** Sets the cache budget; without a cache the request is dropped. */
  function SetCacheSize(st: State, maxCacheSize: nat): (r: State)
    ensures st.cache.None? ==> r == st
    ensures st.cache.Some? ==> r.cache == Some(maxCacheSize) && GetCacheSize(r) == maxCacheSize
    ensures r == st.(cache := r.cache)
  {
    if st.cache.Some? then st.(cache := Some(maxCacheSize)) else st
  }

  /** `close`: tears down tile manager, cache and image and disables the
      viewer; panning, tools and the zoom counter are untouched. */
  function Close(st: State): (r: State)
    ensures r.image.None? && r.cache.None? && r.overview.None? && !r.enabled
    ensures GetCacheSize(r) == 0
    ensures r == st.(image := None, overview := None, cache := None, enabled := false)
  {
    st.(image := None, overview := None, cache := None, enabled := false)
  }

  /** `initialize` followed by `initializeImage`: closes what was open,
      enables the viewer, takes the image, picks the overview level, creates
      a cache with the viewer's own budget (whatever was set before) and
      lays out the scene around the overview level. */
  function Initialize(st: State, levels: Pyramid.Levels): (r: State)
    requires 1 <= |levels|
    ensures r.enabled && r.image == Some(levels)
    ensures r.overview == Some(Pyramid.OverviewLevel(levels))
    ensures GetCacheSize(r) == CacheSize
    ensures r.sceneRect == Some(Pyramid.SceneRect(levels[r.overview.value]))
    ensures r.sceneRect.Some? && r.sceneRect.value.Contains(
              0.0, 0.0,
              levels[r.overview.value].width as real,
              levels[r.overview.value].height as real)
    ensures r == Close(st).(enabled := true, image := r.image, overview := r.overview,
                            cache := r.cache, sceneRect := r.sceneRect)
  {
    var closed := Close(st);
    var level := Pyramid.OverviewLevel(levels);
    closed.(enabled := true, image := Some(levels), overview := Some(level),
            cache := Some(CacheSize), sceneRect := Some(Pyramid.SceneRect(levels[level])))
  }

  /** A budget set before an image is opened never reaches the cache: the
      request is dropped, and opening uses the viewer's own budget. */
  lemma CacheSizeBeforeOpenIsLost(st: State, requested: nat, levels: Pyramid.Levels)
    requires st.cache.None?
    requires 1 <= |levels|
    ensures SetCacheSize(st, requested) == st
    ensures GetCacheSize(Initialize(SetCacheSize(st, requested), levels)) == CacheSize
  {
  }
}

=== FILE: window.dfy ===
/** The main window's plumbing around the viewer: which plugin files it
    loads, the close veto of workstation extensions, the outcome of opening
    a file, the open action that reads the factory from the chosen filter,
    the cache-size forwarding and the start-up sequence. Dialogs, settings
    storage and the image reader are parameters: the reader is a function
    from a file name and a factory name to the image it opens, if any. */
module Window {
  import opened Basics
  import Pyramid
  import Viewer
  import PanTool
  import FileFilters

  // ---------------------------------------------------------------------
  // Plugin file names

  datatype Platform = Windows | MacOS | OtherUnix

  /** The shared-library suffix a plugin file must carry on each platform. */
  function LibrarySuffix(p: Platform): (s: string)
    ensures |s| >= 3 && s[0] == '.'
    ensures p == Windows ==> s == ".dll"
    ensures p == MacOS ==> s == ".dylib"
    ensures p == OtherUnix ==> s == ".so"
  {
    match p
    case Windows => ".dll"
    case MacOS => ".dylib"
    case OtherUnix => ".so"
  }

  function LowerChar(c: char): (d: char)
    ensures 'A' <= c <= 'Z' ==> 'a' <= d <= 'z' && d as int == c as int + 32
    ensures !('A' <= c <= 'Z') ==> d == c
  {
    if 'A' <= c <= 'Z' then (c as int + 32) as char else c
  }

  function Lower(s: string): (r: string)
    ensures |r| == |s|
    ensures forall i :: 0 <= i < |s| ==> r[i] == LowerChar(s[i])
  {
    seq(|s|, i requires 0 <= i < |s| => LowerChar(s[i]))
  }

  predicate EndsWith(s: string, suffix: string) {
    |suffix| <= |s| && s[|s| - |suffix|..] == suffix
  }

  /** `fileName.toLower().endsWith(sharedLibraryExtensions)`. */
  predicate IsPluginFile(fileName: string, p: Platform) {
    EndsWith(Lower(fileName), LibrarySuffix(p))
  }

  /** The suffix test, comparing from the end character by character. */
  method HasLibrarySuffix(fileName: string, p: Platform) returns (b: bool)
    ensures b <==> IsPluginFile(fileName, p)
  {
    var suffix := LibrarySuffix(p);
    if |suffix| > |fileName| {
      return false;
    }
    var offset := |fileName| - |suffix|;
    var i := 0;
    while i < |suffix|
      invariant 0 <= i <= |suffix|
      invariant forall k :: 0 <= k < i ==> LowerChar(fileName[offset + k]) == suffix[k]
    {
      if LowerChar(fileName[offset + i]) != suffix[i] {
        assert Lower(fileName)[offset..][i] != suffix[i];
        return false;
      }
      i := i + 1;
    }
    assert forall k :: 0 <= k < |suffix| ==> Lower(fileName)[offset..][k] == suffix[k];
    assert Lower(fileName)[offset..] == suffix;
    return true;
  }

  /** The directory entries the loader tries, in listing order. */
  function PluginFiles(entries: seq<string>, p: Platform): (r: seq<string>)
    ensures |r| <= |entries|
    decreases |entries|
  {
    if |entries| == 0 then []
    else
      var last := entries[|entries| - 1];
      PluginFiles(entries[..|entries| - 1], p) + (if IsPluginFile(last, p) then [last] else [])
  }

  /** The entries tried are exactly the listed plugin files. */
  lemma {:induction false} PluginFilesExactly(entries: seq<string>, p: Platform)
    ensures forall i :: 0 <= i < |PluginFiles(entries, p)| ==> IsPluginFile(PluginFiles(entries, p)[i], p)
    ensures forall e :: e in entries && IsPluginFile(e, p) ==> e in PluginFiles(entries, p)
    ensures forall e :: e in PluginFiles(entries, p) ==> e in entries
    decreases |entries|
  {
    if |entries| > 0 {
      var init := entries[..|entries| - 1];
      var last := entries[|entries| - 1];
      assert entries == init + [last];
      PluginFilesExactly(init, p);
    }
  }

  /** Listing one more entry adds it to the tail of the selection exactly
      when it passes the suffix test. */
  lemma PluginFilesSnoc(entries: seq<string>, e: string, p: Platform)
    ensures PluginFiles(entries + [e], p) == PluginFiles(entries, p) + (if IsPluginFile(e, p) then [e] else [])
  {
    assert (entries + [e])[..|entries|] == entries;
  }

  /** One more entry of the listing, in the terms the loop below needs. */
  lemma PluginFilesPrefix(entries: seq<string>, i: nat, p: Platform)
    requires i < |entries|
    ensures PluginFiles(entries[..i + 1], p) ==
            PluginFiles(entries[..i], p) + (if IsPluginFile(entries[i], p) then [entries[i]] else [])
  {
    assert entries[..i + 1] == entries[..i] + [entries[i]];
    PluginFilesSnoc(entries[..i], entries[i], p);
  }

  /** The loop of `loadPlugins` over a directory listing. */
  method SelectPluginFiles(entries: seq<string>, p: Platform) returns (selected: seq<string>)
    ensures selected == PluginFiles(entries, p)
  {
    selected := [];
    var i := 0;
    while i < |entries|
      invariant 0 <= i <= |entries|
      invariant selected == PluginFiles(entries[..i], p)
    {
      var ok := HasLibrarySuffix(entries[i], p);
      PluginFilesPrefix(entries, i, p);
      if ok {
        selected := selected + [entries[i]];
      }
      i := i + 1;
    }
    assert entries[..i] == entries;
  }

  // ---------------------------------------------------------------------
  // Window state

  datatype Signal = ImageClosed | NewImageLoaded(fileName: string)

  /** What the image reader hands back: whether the image is valid, and its
      level dimensions. */
  datatype ImageData = ImageData(valid: bool, levels: Pyramid.Levels)

  /** A valid image has at least one level. */
  type Image = i: ImageData | i.valid ==> |i.levels| >= 1 witness ImageData(false, [])

  /** `MultiResolutionImageReader::open(fileName, factoryName)`: the image
      it returns for a file and a factory name, or none. */
  type Reader = (string, string) -> Option<Image>

  datatype Window = Window(
    view: Viewer.State,
    image: Option<Image>,
    title: string,
    /** The "currentFile" and "lastOpenendPath" settings. */
    currentFile: string,
    lastOpenedPath: string,
    status: string,
    /** Signals emitted so far, oldest first. */
    emitted: seq<Signal>,
    cacheMaxByteSize: nat,
    /** Each loaded workstation extension's answer to `canClose`, in load order. */
    extensionsCanClose: seq<bool>)

  // ---------------------------------------------------------------------
  // Close

  /** The index of the first extension that refuses to close, or the number
      of extensions when none refuses. */
  function FirstVeto(answers: seq<bool>): (k: nat)
    ensures k <= |answers|
    ensures forall i :: 0 <= i < k ==> answers[i]
    ensures k < |answers| ==> !answers[k]
    decreases |answers|
  {
    if |answers| == 0 then 0
    else if !answers[0] then 0
    else 1 + FirstVeto(answers[1..])
  }

  datatype CloseResult = CloseResult(window: Window, asked: nat)

  /** `on_actionClose_triggered`. The extensions are asked in order and the
      first refusal ends the action with nothing changed and nobody after
      it asked. Without a refusal the image-closed signal goes out and the
      current-file setting and the title are reset even when no image is
      open; the viewer is closed and the image dropped only when one is. */
  function CloseTriggered(w: Window): (r: CloseResult)
    ensures r.asked <= |w.extensionsCanClose|
    ensures forall i :: 0 <= i < r.asked - 1 ==> w.extensionsCanClose[i]
    ensures false in w.extensionsCanClose <==> r.window == w
    ensures false in w.extensionsCanClose ==> 1 <= r.asked && !w.extensionsCanClose[r.asked - 1]
    ensures false !in w.extensionsCanClose ==>
              && r.asked == |w.extensionsCanClose|
              && r.window.emitted == w.emitted + [ImageClosed]
              && r.window.title == "ASAP" && r.window.currentFile == ""
              && r.window.image.None?
              && r.window.view == (if w.image.Some? then Viewer.Close(w.view) else w.view)
              && r.window.status == (if w.image.Some? then "Closed file!" else w.status)
    ensures false !in w.extensionsCanClose ==>
              r.window == w.(emitted := r.window.emitted, title := "ASAP", currentFile := "",
                             image := None, view := r.window.view, status := r.window.status)
  {
    var k := FirstVeto(w.extensionsCanClose);
    if k < |w.extensionsCanClose| then
      assert false in w.extensionsCanClose;
      CloseResult(w, k + 1)
    else
      assert forall i :: 0 <= i < |w.extensionsCanClose| ==> w.extensionsCanClose[i];
      var signalled := w.(emitted := w.emitted + [ImageClosed], currentFile := "", title := "ASAP");
      if w.image.Some? then
        CloseResult(signalled.(view := Viewer.Close(w.view), image := None, status := "Closed file!"), k)
      else
        CloseResult(signalled, k)
  }

  // ---------------------------------------------------------------------
  // File paths

  /** The index of the last '/' in `s`, if any. */
  function LastSlash(s: string): (r: Option<nat>)
    ensures r.Some? ==> r.value < |s| && s[r.value] == '/' && '/' !in s[r.value + 1..]
    ensures r.None? ==> '/' !in s
    decreases |s|
  {
    if |s| == 0 then None
    else if s[|s| - 1] == '/' then Some(|s| - 1)
    else
      var r := LastSlash(s[..|s| - 1]);
      assert s == s[..|s| - 1] + [s[|s| - 1]];
      r
  }

  /** Any '/' with none after it is the one `LastSlash` finds. */
  lemma LastSlashIsLast(path: string)
    ensures forall i :: 0 <= i < |path| && path[i] == '/' && '/' !in path[i + 1..] ==>
              LastSlash(path) == Some(i)
  {
  }

  /** QFileInfo::fileName: the text after the last '/', the whole path
      when there is none. */
  function FileNamePart(path: string): (r: string)
    ensures '/' !in r
    ensures |r| <= |path| && r == path[|path| - |r|..]
    ensures '/' !in path ==> r == path
    ensures '/' in path ==> |r| < |path| && path[|path| - |r| - 1] == '/'
  {
    match LastSlash(path)
    case None => path
    case Some(i) => path[i + 1..]
  }

  /** QFileInfo::dir().path(): the text before the last '/', "/" when that
      is the first character, "." when there is none. */
  function DirPath(path: string): (r: string)
    ensures '/' !in path ==> r == "."
    ensures forall i :: 0 <= i < |path| && path[i] == '/' && '/' !in path[i + 1..] ==>
              r == (if i == 0 then "/" else path[..i])
  {
    LastSlashIsLast(path);
    match LastSlash(path)
    case None => "."
    case Some(i) => if i == 0 then "/" else path[..i]
  }

  /** Directory and file name put back together give the path again. */
  lemma PathSplitRoundTrip(path: string)
    requires LastSlash(path).Some? && LastSlash(path).value > 0
    ensures DirPath(path) + "/" + FileNamePart(path) == path
  {
    var i := LastSlash(path).value;
    assert path == path[..i] + [path[i]] + path[i + 1..];
  }

  // ---------------------------------------------------------------------
  // Open

  datatype OpenOutcome = NothingToOpen | InvalidFileType | UnsupportedVersion | Loaded

  datatype OpenResult = OpenResult(window: Window, outcome: OpenOutcome)

  /** The window `openFile` goes on with once a file name was chosen: the
      status bar cleared, and an open image closed through the close action. */
  function ClosedForOpen(w: Window): (c: Window)
    ensures w.image.None? ==> c == w.(status := "")
    ensures w.image.Some? ==> c == CloseTriggered(w.(status := "")).window
  {
    var cleared := w.(status := "");
    if cleared.image.Some? then CloseTriggered(cleared).window else cleared
  }

  /** `openFile(fileName, factory)`. An empty name only clears the status
      bar. Otherwise an open image is closed first (subject to the
      extensions' veto, which does not stop the open), the paths and the
      title are updated before the reader is asked, and the reader's answer
      for this file and this factory decides: no image is an invalid file
      type, an invalid image an unsupported version, a valid image is shown
      by the viewer and announced. The window keeps whatever the reader
      returned, an invalid image included. */
  function OpenFile(w: Window, fileName: string, factory: string, reader: Reader): (r: OpenResult)
    ensures fileName == [] ==> r == OpenResult(w.(status := ""), NothingToOpen)
    ensures fileName != [] ==>
              r.window == ClosedForOpen(w).(lastOpenedPath := DirPath(fileName),
                                            currentFile := FileNamePart(fileName),
                                            title := "ASAP - " + FileNamePart(fileName),
                                            image := reader(fileName, factory),
                                            status := r.window.status,
                                            view := r.window.view,
                                            emitted := r.window.emitted)
    ensures fileName != [] && reader(fileName, factory).None? ==>
              r.outcome == InvalidFileType && r.window.status == "Invalid file type"
    ensures fileName != [] && reader(fileName, factory).Some? && !reader(fileName, factory).value.valid ==>
              r.outcome == UnsupportedVersion && r.window.status == "Unsupported file type version"
    ensures fileName != [] && reader(fileName, factory).Some? && reader(fileName, factory).value.valid ==>
              && r.outcome == Loaded
              && r.window.view == Viewer.Initialize(ClosedForOpen(w).view, reader(fileName, factory).value.levels)
              && r.window.emitted == ClosedForOpen(w).emitted + [NewImageLoaded(fileName)]
              && r.window.status == ClosedForOpen(w).status
    ensures fileName != [] && r.outcome != Loaded ==>
              r.window.view == ClosedForOpen(w).view && r.window.emitted == ClosedForOpen(w).emitted
  {
    if fileName == [] then OpenResult(w.(status := ""), NothingToOpen)
    else
      var closed := ClosedForOpen(w);
      var answer := reader(fileName, factory);
      var named := closed.(lastOpenedPath := DirPath(fileName),
                           currentFile := FileNamePart(fileName),
                           title := "ASAP - " + FileNamePart(fileName),
                           image := answer);
      match answer
      case None => OpenResult(named.(status := "Invalid file type"), InvalidFileType)
      case Some(img) =>
        if img.valid then
          OpenResult(named.(view := Viewer.Initialize(named.view, img.levels),
                            emitted := named.emitted + [NewImageLoaded(fileName)]), Loaded)
        else
          OpenResult(named.(status := "Unsupported file type version"), UnsupportedVersion)
  }

  /** A named file for which the reader gives a valid image loads: the
      enabled viewer shows that image with its own cache budget, and the
      image is announced last. */
  lemma LoadedImageIsShown(w: Window, fileName: string, factory: string, reader: Reader)
    requires fileName != []
    requires reader(fileName, factory).Some? && reader(fileName, factory).value.valid
    ensures var r := OpenFile(w, fileName, factory, reader);
            && r.outcome == Loaded
            && r.window.view.enabled
            && r.window.view.image == Some(reader(fileName, factory).value.levels)
            && Viewer.GetCacheSize(r.window.view) == Viewer.CacheSize
            && r.window.emitted[|r.window.emitted| - 1] == NewImageLoaded(fileName)
  {
  }

  /** The factory name reaches the reader: the same file opened under two
      names gets each name's answer, so a reader that knows the file only
      under one factory loads it with that factory and not with the other. */
  lemma FactoryDecidesOutcome(w: Window, fileName: string)
    requires fileName != []
    ensures var reader: Reader := (f: string, n: string) =>
              if n == "tiff" then Some(ImageData(true, [Pyramid.Dims(1024, 768)])) else None;
            && OpenFile(w, fileName, "tiff", reader).outcome == Loaded
            && OpenFile(w, fileName, "default", reader).outcome == InvalidFileType
  {
  }

  /** `on_actionOpen_triggered`: the dialog's chosen file and filter; the
      factory is read from the filter, the default entry meaning "default".
      A cancelled dialog (empty file name) changes nothing but the status bar. */
  function OpenTriggered(w: Window, chosenFile: string, chosenFilter: string, reader: Reader): (r: OpenResult)
    ensures chosenFile == [] ==> r == OpenResult(w.(status := ""), NothingToOpen)
    ensures r.outcome == NothingToOpen <==> chosenFile == []
    ensures FileFilters.SelectedFactory(chosenFilter) == FileFilters.DefaultLabel ==>
              r == OpenFile(w, chosenFile, "default", reader)
    ensures FileFilters.SelectedFactory(chosenFilter) != FileFilters.DefaultLabel ==>
              r == OpenFile(w, chosenFile, FileFilters.SelectedFactory(chosenFilter), reader)
  {
    OpenFile(w, chosenFile, FileFilters.OpenFactoryName(FileFilters.SelectedFactory(chosenFilter)), reader)
  }

  /** Picking the default entry of the dialog the window built opens the
      file with the "default" factory; picking a factory's entry opens it
      with that factory. */
  lemma OpenUsesChosenFactory(w: Window, chosenFile: string, allExtensions: seq<string>,
                              factories: seq<FileFilters.Factory>, k: nat, reader: Reader)
    requires FileFilters.AllHaveExtensions(factories)
    requires FileFilters.SeparatorFree(allExtensions, factories)
    requires forall i :: 0 <= i < |factories| ==>
               '(' !in factories[i].name && FileFilters.Tidy(factories[i].name)
               && factories[i].name != FileFilters.DefaultLabel
    requires k <= |factories|
    ensures var offered := FileFilters.SplitEntries(FileFilters.FilterList(allExtensions, factories));
            k < |offered|
            && OpenTriggered(w, chosenFile, offered[k], reader) ==
               OpenFile(w, chosenFile, if k == 0 then "default" else factories[k - 1].name, reader)
  {
    FileFilters.FilterListSplitsIntoEntries(allExtensions, factories);
    if k == 0 {
      FileFilters.DefaultEntryOpensWithDefault(allExtensions);
    } else {
      FileFilters.FactoryEntryRoundTrip(factories[k - 1]);
    }
  }

  // ---------------------------------------------------------------------
  // Cache size

  /** The byte budget the window holds for the viewer: the viewer's own default. */
  const DefaultCacheMaxByteSize: nat := 1000 * 512 * 512 * 3

  /** `setCacheSize`: the argument is ignored and the stored budget is
      forwarded to the viewer, where it takes effect only if a cache exists. */
  function SetCacheSize(w: Window, requested: nat): (r: Window)
    ensures r == w.(view := r.view)
    ensures w.view.cache.None? ==> r == w
    ensures w.view.cache.Some? ==> GetCacheSize(r) == w.cacheMaxByteSize
    ensures r.view == w.view.(cache := r.view.cache)
  {
    w.(view := Viewer.SetCacheSize(w.view, w.cacheMaxByteSize))
  }

  function GetCacheSize(w: Window): (r: nat)
    ensures r == Viewer.GetCacheSize(w.view)
    ensures w.view.cache.None? ==> r == 0
  {
    Viewer.GetCacheSize(w.view)
  }

  /** Whatever size is requested, the window sets the same one. */
  lemma SetCacheSizeIgnoresRequest(w: Window, a: nat, b: nat)
    ensures SetCacheSize(w, a) == SetCacheSize(w, b)
    ensures w.view.cache.Some? ==> GetCacheSize(SetCacheSize(w, a)) == w.cacheMaxByteSize
  {
  }

  // ---------------------------------------------------------------------
  // Start-up

  /** The names of the non-null tools in a load list. */
  function ToolNames(tools: seq<Option<Viewer.ToolRef>>): (names: set<string>)
    ensures forall i :: 0 <= i < |tools| && tools[i].Some? ==> tools[i].value.name in names
    ensures forall n :: n in names ==> exists i :: 0 <= i < |tools| && tools[i].Some? && tools[i].value.name == n
    decreases |tools|
  {
    if |tools| == 0 then {}
    else
      var init := tools[..|tools| - 1];
      var last := tools[|tools| - 1];
      var before := ToolNames(init);
      assert forall i :: 0 <= i < |init| ==> init[i] == tools[i];
      before + (if last.Some? then {last.value.name} else {})
  }

  /** Whether the tool loaded at index `i` is the last one loaded under its name. */
  predicate LastUnderItsName(tools: seq<Option<Viewer.ToolRef>>, i: nat)
    requires i < |tools| && tools[i].Some?
  {
    forall j :: i < j < |tools| && tools[j].Some? ==> tools[j].value.name != tools[i].value.name
  }

  /** Registers the loaded tools with the viewer, in load order: the registry
      gains exactly their names and nothing else changes. */
  function AddTools(v: Viewer.State, tools: seq<Option<Viewer.ToolRef>>): (r: Viewer.State)
    ensures r == v.(tools := r.tools)
    ensures r.tools.Keys == v.tools.Keys + ToolNames(tools)
    decreases |tools|
  {
    if |tools| == 0 then v
    else Viewer.AddTool(AddTools(v, tools[..|tools| - 1]), tools[|tools| - 1])
  }

  /** After registration a name holds the last tool loaded under it. */
  lemma {:induction false} AddToolsKeepsLast(v: Viewer.State, tools: seq<Option<Viewer.ToolRef>>, i: nat)
    requires i < |tools| && tools[i].Some? && LastUnderItsName(tools, i)
    ensures AddTools(v, tools).tools[tools[i].value.name] == Some(tools[i].value.id)
    decreases |tools|
  {
    var init := tools[..|tools| - 1];
    var last := tools[|tools| - 1];
    if i < |tools| - 1 {
      assert init[i] == tools[i];
      assert LastUnderItsName(init, i) by {
        forall j | i < j < |init| && init[j].Some?
          ensures init[j].value.name != init[i].value.name
        {
          assert init[j] == tools[j];
        }
      }
      AddToolsKeepsLast(v, init, i);
      assert last.None? || last.value.name != tools[i].value.name;
    }
  }

  /** Entries under names no loaded tool carries are kept as they were. */
  lemma {:induction false} AddToolsKeepsOthers(v: Viewer.State, tools: seq<Option<Viewer.ToolRef>>, n: string)
    requires n in v.tools && n !in ToolNames(tools)
    ensures AddTools(v, tools).tools[n] == v.tools[n]
    decreases |tools|
  {
    if |tools| > 0 {
      var init := tools[..|tools| - 1];
      AddToolsKeepsOthers(v, init, n);
    }
  }

  /** The toolbar buttons the constructor checks: those named "pan",
      provided a "pan" tool is registered. */
  function CheckedButtons(v: Viewer.State, buttonNames: seq<string>): (checked: seq<bool>)
    ensures |checked| == |buttonNames|
    ensures forall i :: 0 <= i < |buttonNames| ==>
              (checked[i] <==> Viewer.HasTool(v, "pan") && buttonNames[i] == "pan")
  {
    seq(|buttonNames|, i requires 0 <= i < |buttonNames| => Viewer.HasTool(v, "pan") && buttonNames[i] == "pan")
  }

  datatype Started = Started(window: Window, checked: seq<bool>, outcome: Option<OpenOutcome>)

  /** The window the constructor has built once the widgets exist and before
      a command-line file is opened: plugins registered their tools, the
      budget was forwarded to the viewer (which has no cache yet, so it is
      dropped), the "pan" tool was made active when registered, and the
      viewer was disabled. */
  function Constructed(rightToLeft: bool, title: string, tools: seq<Option<Viewer.ToolRef>>,
                       extensionsCanClose: seq<bool>): (w: Window)
    ensures w.cacheMaxByteSize == DefaultCacheMaxByteSize && w.title == title
    ensures w.view.tools == AddTools(Viewer.Initial(rightToLeft), tools).tools
    ensures !w.view.pan && w.view.prevPan == Origin && w.view.scroll == Origin && w.view.scheduled == 0
    ensures w.view.rightToLeft == rightToLeft
    ensures !w.view.enabled && w.view.image.None? && GetCacheSize(w) == 0
    ensures w.image.None? && w.emitted == [] && w.extensionsCanClose == extensionsCanClose
    ensures Viewer.HasTool(w.view, "pan") ==> w.view.active == w.view.tools["pan"]
    ensures !Viewer.HasTool(w.view, "pan") ==> w.view.active.None?
  {
    var v0 := Viewer.Initial(rightToLeft);
    var v1 := AddTools(v0, tools);
    var v2 := Viewer.SetCacheSize(v1, DefaultCacheMaxByteSize);
    var v3 := if Viewer.HasTool(v2, "pan") then Viewer.SetActiveTool(v2, "pan") else v2;
    Window(v3.(enabled := false), None, title, "", "", "", [], DefaultCacheMaxByteSize, extensionsCanClose)
  }

  /** The constructor: the window above, the toolbar buttons it checks, and,
      when the command line names a file (`args[1]`), that file opened with
      the "default" factory. */
  function Startup(rightToLeft: bool, title: string, tools: seq<Option<Viewer.ToolRef>>,
                   buttonNames: seq<string>, extensionsCanClose: seq<bool>,
                   args: seq<string>, reader: Reader): (r: Started)
    ensures var w := Constructed(rightToLeft, title, tools, extensionsCanClose);
            && (|args| <= 1 ==> r.window == w && r.outcome.None?)
            && (|args| > 1 ==> var o := OpenFile(w, args[1], "default", reader);
                                r.window == o.window && r.outcome == Some(o.outcome))
    ensures |r.checked| == |buttonNames|
    ensures var w := Constructed(rightToLeft, title, tools, extensionsCanClose);
            forall i :: 0 <= i < |buttonNames| ==>
              (r.checked[i] <==> Viewer.HasTool(w.view, "pan") && buttonNames[i] == "pan")
  {
    var w := Constructed(rightToLeft, title, tools, extensionsCanClose);
    var checked := CheckedButtons(w.view, buttonNames);
    if |args| > 1 then
      var o := OpenFile(w, args[1], "default", reader);
      Started(o.window, checked, Some(o.outcome))
    else
      Started(w, checked, None)
  }

  /** With the pan tool loaded (and no later tool registered under its name),
      start-up makes it the active tool with its flag set and checks its
      button, the one named after the tool. */
  lemma StartupSelectsPanTool(rightToLeft: bool, title: string, tools: seq<Option<Viewer.ToolRef>>,
                              id: Viewer.ToolId, k: nat, buttonNames: seq<string>, j: nat,
                              extensionsCanClose: seq<bool>, reader: Reader)
    requires k < |tools| && tools[k] == Some(Viewer.ToolRef(id, PanTool.Name()))
    requires forall i :: k < i < |tools| && tools[i].Some? ==> tools[i].value.name != PanTool.Name()
    requires j < |buttonNames| && buttonNames[j] == PanTool.PanButton.objectName
    ensures var s := Startup(rightToLeft, title, tools, buttonNames, extensionsCanClose, [], reader);
            && s.window.view.active == Some(id)
            && s.window.view.flags[id]
            && s.checked[j]
  {
    var v0 := Viewer.Initial(rightToLeft);
    var v1 := AddTools(v0, tools);
    PanRegistered(v0, tools, id, k);
  }

  /** The last registration under "pan" is the one the registry keeps. */
  lemma {:induction false} PanRegistered(v: Viewer.State, tools: seq<Option<Viewer.ToolRef>>, id: Viewer.ToolId, k: nat)
    requires k < |tools| && tools[k] == Some(Viewer.ToolRef(id, "pan"))
    requires forall i :: k < i < |tools| && tools[i].Some? ==> tools[i].value.name != "pan"
    ensures "pan" in AddTools(v, tools).tools && AddTools(v, tools).tools["pan"] == Some(id)
    decreases |tools|
  {
    var last := tools[|tools| - 1];
    var init := tools[..|tools| - 1];
    if k < |tools| - 1 {
      PanRegistered(v, init, id, k);
    }
  }
}
